=== FILE: README.md ===
# IDHealth web app — a Dafny model of its core

IDHealth is a React web app for people with diabetes. It runs alongside two small
Flask services. A patient records glucose readings into their Solid Pod. The app
turns the latest reading of a time slot into a dose advice and saves that as a
prediction. The day's predictions feed a training request and a bar chart.

This project models that core as pure functions over an abstract Pod and proves
what they promise:

- **Pod store** (`Pod`):
  - The Pod is a map from URL to dataset.
  - Per-URL read and write faults stand in for every error the client library can raise.
  - Each error keeps its `statusCode`, `response.status` and message separately. The callers test different ones.
  - A save carries the URL its dataset was fetched from, if any. The client library updates a dataset fetched from the target URL. It writes any other dataset create-only, and that write fails with 412 when the resource exists.
  - A dataset is a sequence of Things, each with typed literals, plus the URLs of the resources it contains.
- **Measurement store**:
  - Inserting a reading (`UploadDataToPod`, `InsertMeasurement`).
  - Listing one day's readings and deleting one by URL (`MeasurementsPage`).
  - The table that shows them (`MeasurementTable`).
  - Counting all readings from the dashboard (`Dashboard`).
- **Dose advice** (`ModelPage`):
  - Selecting the latest reading of a slot.
  - The 100 mg/dL basal threshold and the local dose `mmol * 0.2`.
  - The `/predict` payload.
  - Saving the prediction record.
- **Prediction server** (`PredictServer`): reading the nine features (a missing key reads as 0) and reporting column 0 of the model's output.
- **Training** (`TrainingPage`, `TrainingServer`, `TrainingDates`):
  - The distinct predicted values, with the threshold of six.
  - The records sent to `/train`, and the server's validation of them.
  - The training-date log.
- **Profile and role** (`Dashboard`):
  - Normalising the role and checking it against the whitelist.
  - Building the profile, and the fetches a profile triggers.
  - The patient-file check.
- **Chart** (`ValueGraph`) and **access log** (`AccessRecords`).

Helper modules:
- `Wrappers`: `Option` and `Result`.
- `Js`: numbers that may be NaN, and JSON values.
- `Strings`: `trim`, ASCII `toLowerCase`, `indexOf`/`includes`, `replace` with a string pattern, and ordering by `<`.
- `Seqs`: `Array.from(new Set(...))`, which keeps first occurrences in order.

Some behaviours of the code are stated as lemmas because they are easy to miss:

- `findLatestData` forgets a first match that has no timestamp (`ModelPage.FirstUntimestampedMatchIsForgotten`).
- The server's prediction is never used. The reply of `/predict` is not an input of `ModelPage.HandlePredict` at all. The saved dose is the one calculated locally.
- A glucose value that does not parse is stored but never listed (`InsertMeasurement.UnparsableValueIsSavedButNotListed`).
- The delete button always reports success (`MeasurementTable.FailedDeleteReportsSuccess`).
- The dashboard's 401 test reads the error message. So a missing measurements root whose URL happens to contain "401" logs the user out (`Dashboard.NotFoundUnder401UrlLogsOut`).
- The patient file URL gets a doubled slash (`Dashboard.PatientFileUrlDoublesSlash`).
- `getFile` throws on a missing file, so the falsy branch of the patient-file check is dead code. A missing file ends as the page error (`Dashboard.PatientFileDecidesLoading`).
- The first prediction of a day and the first training date are lost (see "## Findings"). The rest of the model uses the corrected saves: `ModelPage.HandlePredict` calls `ModelPage.SavePrediction`, and `TrainingPage.SendTrainingData` calls `TrainingDates.SaveTrainingDate`.

Parameters stand in for things outside the model:
- The clock: dates and the names derived from it.
- `parseFloat` and number-to-string conversion.
- The date formatters.
- The server replies.
- The SPARQL profile query and the role lookup.
- `PATIENT_ROLE` and `DOCTOR_ROLE`. The constants file is not part of this model. The two names are taken to be distinct, non-empty, trimmed and lower-case (`Dashboard.RoleNames`).
- `getPatientInfo`.
- The blockchain contract call.

The hard-coded Pod URLs become a storage-root parameter. The insert page's root is its own parameter; it is not tied to the profile's storage URL.

## Model

| member | source | states |
|---|---|---|
| Pod.Read | IDHealth_WebApp-main/src/pages/MeasuramentsPage.js:62 | a read succeeds exactly when the URL is stored and not faulted; a missing URL fails with the 404 error |
| Pod.Save | IDHealth_WebApp-main/src/uploadDataToPod.js:49-52 | a save replaces exactly the resource at its URL. It fails on a write fault, and with 412 when a dataset not fetched from that URL meets an existing resource |
| Pod.WithoutUrlAppend | IDHealth_WebApp-main/src/pages/MeasuramentsPage.js:42 | removing by URL distributes over concatenation, so the Things kept stay in order |
| Pod.WithoutUrlSingle | IDHealth_WebApp-main/src/pages/MeasuramentsPage.js:42 | a single Thing is kept exactly when its URL is another one |
| Pod.CreateContainer | IDHealth_WebApp-main/src/pages/ModelPage.js:111 | creating a container fails on an existing resource and otherwise stores an empty one |
| Pod.GetDecimal | IDHealth_WebApp-main/src/pages/MeasuramentsPage.js:68 | a decimal reads as a number only when the literal is typed decimal and parses |
| Pod.FindThing | IDHealth_WebApp-main/src/pages/MeasuramentsPage.js:35 | the index found is the first Thing with the URL; none means no Thing has it |
| Pod.SetFreshThing | IDHealth_WebApp-main/src/uploadDataToPod.js:46 | setting a Thing with a new URL appends it and keeps every other Thing |
| Pod.RemoveFromDistinct | IDHealth_WebApp-main/src/pages/MeasuramentsPage.js:42 | removing by URL in a dataset of distinct subjects drops exactly the one Thing, order kept |
| ModelPage.Scan | IDHealth_WebApp-main/src/pages/ModelPage.js:165-190 | the scan keeps a Thing of the slot, and ends empty exactly when it started empty and met no Thing of the slot |
| ModelPage.FindLatestData | IDHealth_WebApp-main/src/pages/ModelPage.js:161-193 | null exactly when no Thing is in the selected slot; otherwise a Thing of the input in that slot |
| ModelPage.ScanSelectsLatest | IDHealth_WebApp-main/src/pages/ModelPage.js:186-189 | from any point of the scan, the result is the earliest Thing with a greatest timestamp of the slot |
| ModelPage.SelectsGreatestTimestamp | IDHealth_WebApp-main/src/pages/ModelPage.js:161-193 | when every Thing of the slot is timestamped, the selection has the greatest timestamp under string `<`, the first such on ties |
| ModelPage.ScanForgetsUntimestamped | IDHealth_WebApp-main/src/pages/ModelPage.js:186-188 | while no timestamp is held, the Thing held is replaced by the next match |
| ModelPage.ScanSkipsOutOfSlot | IDHealth_WebApp-main/src/pages/ModelPage.js:186 | Things outside the slot before the first match do not affect the result |
| ModelPage.FirstUntimestampedMatchIsForgotten | IDHealth_WebApp-main/src/pages/ModelPage.js:170-189 | a first match without a timestamp is overridden by any later match, as if it were absent |
| ModelPage.IncompleteThingStillSelected | IDHealth_WebApp-main/src/pages/ModelPage.js:180-189 | missing fields only warn: a lone Thing of the slot is selected |
| ModelPage.Advise | IDHealth_WebApp-main/src/pages/ModelPage.js:46-63 | basal advice exactly at or below 100 mg/dL; above it the dose times 90 is the glucose value, so it exceeds 10/9; NaN gives a NaN dose |
| ModelPage.PredictPayload | IDHealth_WebApp-main/src/pages/ModelPage.js:69-79 | nine entries: ID 0, week 1, weekday 1, then the six slot fields in order, the selected one carrying the mmol value and the others 4 |
| ModelPage.AtMostOneSlotCarriesTheMeasurement | IDHealth_WebApp-main/src/pages/ModelPage.js:73-78 | every slot field other than the selected one carries 4 |
| ModelPage.LoadPredictions | IDHealth_WebApp-main/src/pages/ModelPage.js:104-116 | a readable container is loaded bound to its URL; a read error other than 404 fails; a 404 on a free URL creates the container empty |
| ModelPage.SavePredictionAsWritten | IDHealth_WebApp-main/src/pages/ModelPage.js:104-138 | on a readable container it agrees with the corrected save; a fetch failure changes nothing |
| ModelPage.SavePrediction | IDHealth_WebApp-main/src/pages/ModelPage.js:104-138 | corrected: a readable container gets the record set into it, or the save fails on a write fault; a 404 on a free URL gives a container holding the record; any other read error changes nothing |
| ModelPage.FirstPredictionAsWrittenFails | IDHealth_WebApp-main/src/pages/ModelPage.js:109-137 | as written, the first prediction of a day leaves an empty container and the error toast; the corrected save stores the record |
| ModelPage.HandlePredict | IDHealth_WebApp-main/src/pages/ModelPage.js:23-157 | the predicted insulin is never set to a value; without a POST nothing is written (the dose branch uses the corrected save) |
| ModelPage.BasalAdviceWritesNothing | IDHealth_WebApp-main/src/pages/ModelPage.js:54-58 | at most 100 mg/dL: basal advice, both insulin values null, no POST and an unchanged Pod |
| ModelPage.DoseRecordIsSaved | IDHealth_WebApp-main/src/pages/ModelPage.js:59-138 | above 100 mg/dL: the payload is posted and the record of the local dose, the glucose value and the slot is set into the day's predictions |
| ModelPage.PredictionThingFields | IDHealth_WebApp-main/src/pages/ModelPage.js:118-121 | the prediction record holds the shown dose, the shown glucose value and the time slot, each as a plain string |
| ModelPage.FirstPredictionOfTheDay | IDHealth_WebApp-main/src/pages/ModelPage.js:104-125 | with the corrected save, a missing prediction container is created and then holds exactly the one record |
| PredictServer.GetLastOccurrence | IDHealth_WebApp-main/src/flask_server/flaskServer.py:32-45 | a key repeated in the JSON body reads as its last occurrence |
| PredictServer.Get | IDHealth_WebApp-main/src/flask_server/flaskServer.py:37-45 | a key absent from the body reads as the default; the value for a present key is stated by GetLastOccurrence |
| PredictServer.FeatureVector | IDHealth_WebApp-main/src/flask_server/flaskServer.py:36-46 | nine features in key order, a missing key reading as 0 |
| PredictServer.Predict | IDHealth_WebApp-main/src/flask_server/flaskServer.py:28-81 | no JSON object or a scaler of another width gives a 500; with a JSON object, a width of nine and a model that answers, the reply is column 0 of its first row, or a 500 when there is none |
| PredictServer.ReportedTargetIsFirstColumn | IDHealth_WebApp-main/src/flask_server/flaskServer.py:65-74 | the reported target label sits at index 0 of the target labels |
| PredictServer.PayloadFillsFeatureVector | IDHealth_WebApp-main/src/flask_server/flaskServer.py:36-46 | the model page's payload reaches the server intact: no default is used and the vector is 0, 1, 1 and the six slot values |
| TrainingServer.DropTargets | IDHealth_WebApp-main/src/flask_server/trainingServer.py:40 | the input columns are exactly the columns that are not targets |
| TrainingServer.DropTargetsAppend | IDHealth_WebApp-main/src/flask_server/trainingServer.py:40 | dropping the targets distributes over concatenation, so the kept columns stay in frame order |
| TrainingServer.DropTargetsSingle | IDHealth_WebApp-main/src/flask_server/trainingServer.py:40 | a single column is kept exactly when it is not a target |
| TrainingServer.Train | IDHealth_WebApp-main/src/flask_server/trainingServer.py:19-52 | 400 exactly for a missing body or `features` key, and exactly for a missing target column; records with all six targets train exactly when the fit succeeds, else 500; a trained model splits the columns into the six targets and the disjoint rest |
| TrainingServer.UniformRecordsGiveTheirKeys | IDHealth_WebApp-main/src/flask_server/trainingServer.py:27 | records that all have the same distinct keys give exactly those columns |
| TrainingDates.LoadLog | IDHealth_WebApp-main/src/pages/TrainingDateUtils.js:17-30 | a readable log is loaded bound to its URL; a read error other than 404 fails; a 404 on a free, writable URL saves the log empty |
| TrainingDates.SaveTrainingDateAsWritten | IDHealth_WebApp-main/src/pages/TrainingDateUtils.js:16-48 | only the log's resource can change; the fault maps stay |
| TrainingDates.SaveTrainingDate | IDHealth_WebApp-main/src/pages/TrainingDateUtils.js:16-48 | corrected: only the log's resource can change; the fault maps stay |
| TrainingDates.SaveAppendsOneRecord | IDHealth_WebApp-main/src/pages/TrainingDateUtils.js:32-43 | with the corrected save, a readable or missing log and no write fault, the dated Thing is set into the log, last, replacing any Thing of the same name |
| TrainingDates.AsWrittenAgreesOnExistingLog | IDHealth_WebApp-main/src/pages/TrainingDateUtils.js:19-43 | on a readable log the code as written and the corrected save give the same Pod |
| TrainingDates.FirstRunLogsNoDate | IDHealth_WebApp-main/src/pages/TrainingDateUtils.js:22-46 | as written, a first run creates the log empty and records no date; the corrected save creates it holding the date |
| TrainingDates.FailedSaveAppendsNothing | IDHealth_WebApp-main/src/pages/TrainingDateUtils.js:22-47 | after a read error other than 404, or a write fault, the Pod is unchanged |
| TrainingDates.DatesAppend | IDHealth_WebApp-main/src/pages/TrainingDateUtils.js:56-59 | the dates of a concatenation are the dates of each part |
| TrainingDates.Dates | IDHealth_WebApp-main/src/pages/TrainingDateUtils.js:56-59 | length bound and non-empty dates only; content by DatesAppend and FetchTrainingDates |
| TrainingDates.FetchTrainingDates | IDHealth_WebApp-main/src/pages/TrainingDateUtils.js:50-66 | an unreadable log gives no dates; otherwise the formatted non-empty date strings, in order |
| TrainingDates.SaveThenFetch | IDHealth_WebApp-main/src/pages/TrainingDateUtils.js:16-66 | a saved date with a fresh name is listed last on the next fetch |
| TrainingPage.PredictedValuesAppend | IDHealth_WebApp-main/src/pages/TrainingPage.js:43-44 | the predicted values of a concatenation are those of each part |
| TrainingPage.PredictedValues | IDHealth_WebApp-main/src/pages/TrainingPage.js:43-44 | length bound only; content by PredictedValuesAppend and PredictedValuesMembership |
| TrainingPage.PredictedValuesMembership | IDHealth_WebApp-main/src/pages/TrainingPage.js:43-44 | a value is listed exactly when some Thing holds it as a plain string |
| TrainingPage.UniqueValues | IDHealth_WebApp-main/src/pages/TrainingPage.js:46 | the distinct values, each held by some Thing, every held value included |
| Seqs.DedupKeepsFirstOccurrenceOrder | IDHealth_WebApp-main/src/pages/TrainingPage.js:46 | the distinct values come in the order of their first occurrences |
| TrainingPage.FetchPredictions | IDHealth_WebApp-main/src/pages/TrainingPage.js:23-59 | a readable day gives its distinct values and warns exactly when there are none; a 404 on a free URL creates the container and gives none, with the warning; a failed creation or any other read error is the page error and changes nothing |
| TrainingPage.FeatureRecord | IDHealth_WebApp-main/src/pages/TrainingPage.js:84-93 | one record: the eight keys in order, each with the parsed value |
| TrainingPage.FeatureRecords | IDHealth_WebApp-main/src/pages/TrainingPage.js:84-93 | one record per unique value, in order, each the record of that value |
| TrainingPage.TrainRequest | IDHealth_WebApp-main/src/pages/TrainingPage.js:95-101 | the posted body has the single key `features`, holding one record per value, in order; its acceptance by the server is RecordsPassTrainingValidation |
| TrainingPage.SendTrainingData | IDHealth_WebApp-main/src/pages/TrainingPage.js:73-123 | fewer than six values: the error toast and nothing sent; otherwise the records are posted, and only an OK reply logs the date and refreshes the dates |
| TrainingPage.RecordsPassTrainingValidation | IDHealth_WebApp-main/src/pages/TrainingPage.js:84-101 | the records the page sends pass the training server's checks, with features feature1 and feature2 and the six targets |
| TrainingPage.UniformRecordsHaveRecordKeys | IDHealth_WebApp-main/src/pages/TrainingPage.js:84-93 | the columns of the records are the eight record keys |
| TrainingPage.TargetsAreDropped | IDHealth_WebApp-main/src/flask_server/trainingServer.py:40-41 | target columns never reach the input columns |
| TrainingPage.SuccessfulTrainingLogsTheDate | IDHealth_WebApp-main/src/pages/TrainingPage.js:106-116 | a successful training adds the date to the log, and it shows up in the refreshed dates |
| UploadDataToPod.MeasurementThing | IDHealth_WebApp-main/src/uploadDataToPod.js:41-44 | the new Thing holds the slot and insertion time as strings and the parsed glucose value as a decimal |
| UploadDataToPod.BaseDataset | IDHealth_WebApp-main/src/uploadDataToPod.js:27-38 | the stored dataset, an empty one on a 404 by `statusCode`, none on any other error |
| UploadDataToPod.Upload | IDHealth_WebApp-main/src/uploadDataToPod.js:19-64 | without login only the error toast; otherwise only the day's resource changes, to the base dataset with the new Thing set last, and only when it was read or is absent |
| UploadDataToPod.UploadAppendsOneThing | IDHealth_WebApp-main/src/uploadDataToPod.js:41-49 | with a fresh name and no faults the day's dataset gains exactly the new Thing at its end |
| InsertMeasurement.HandleSubmit | IDHealth_WebApp-main/src/components/measurament/InsertMeasurement.js:14-39 | the page navigates home twice; without login nothing is stored; a stored reading ends the day's dataset with the submitted insertion time |
| InsertMeasurement.SubmitThenFetch | IDHealth_WebApp-main/src/components/measurament/InsertMeasurement.js:14-39 | round trip, for a profile whose storage URL is the pod the insert page hard-codes: the day's list afterwards is the previous list followed by the submitted reading |
| InsertMeasurement.OtherProfileListsNothingNew | IDHealth_WebApp-main/src/components/measurament/InsertMeasurement.js:28 | for a profile whose storage URL is another one, the day's list after a submit is what it was before |
| InsertMeasurement.UnparsableValueIsSavedButNotListed | IDHealth_WebApp-main/src/uploadDataToPod.js:43 | a value that does not parse is saved but the day's list stays as it was |
| MeasurementsPage.EntryOf | IDHealth_WebApp-main/src/pages/MeasuramentsPage.js:66-83 | a row exists exactly when the Thing has the decimal and both strings, and it carries those values and the Thing's URL |
| MeasurementsPage.ToEntries | IDHealth_WebApp-main/src/pages/MeasuramentsPage.js:65-85 | length bound and the page's date on every row only; content by ToEntriesMembership and ToEntriesAppend |
| MeasurementsPage.ToEntriesAppend | IDHealth_WebApp-main/src/pages/MeasuramentsPage.js:65-85 | the rows of a concatenation are the rows of each part |
| MeasurementsPage.ToEntriesMembership | IDHealth_WebApp-main/src/pages/MeasuramentsPage.js:65-85 | every well-formed Thing gives a row and every row comes from a Thing |
| MeasurementsPage.FetchMeasurementsForDay | IDHealth_WebApp-main/src/pages/MeasuramentsPage.js:22-98 | no profile: no fetch; a readable day gives its rows; a 404 by `response.status` empties the list; other errors keep it |
| MeasurementsPage.HandleDelete | IDHealth_WebApp-main/src/pages/MeasuramentsPage.js:27-54 | the Pod changes only when the row's Thing was found and the save succeeded, and then the Thing is removed from the day and the row from the list; otherwise nothing changes |
| MeasurementsPage.Without | IDHealth_WebApp-main/src/pages/MeasuramentsPage.js:48-50 | the rows kept are exactly those with another URL |
| MeasurementsPage.WithoutAppend | IDHealth_WebApp-main/src/pages/MeasuramentsPage.js:48-50 | the filter distributes over concatenation, so the rows kept stay in order |
| MeasurementsPage.WithoutSingle | IDHealth_WebApp-main/src/pages/MeasuramentsPage.js:48-50 | a single row is kept exactly when its URL is another one |
| MeasurementsPage.DeleteRemovesExactlyThatThing | IDHealth_WebApp-main/src/pages/MeasuramentsPage.js:35-44 | in a day of distinct subjects a delete removes just that Thing, others in order, and no row with its URL remains |
| MeasurementTable.RenderValue | IDHealth_WebApp-main/src/components/measurament/MeasuramentDataTable.js:65 | blank exactly for an undefined or "N/A" cell; otherwise the cell followed by " mg/dl" |
| MeasurementTable.RenderTime | IDHealth_WebApp-main/src/components/measurament/MeasuramentDataTable.js:79 | the cell as is, blank when undefined or "N/A" |
| MeasurementTable.RenderInsertionTime | IDHealth_WebApp-main/src/components/measurament/MeasuramentDataTable.js:93 | the cell as is, "N/A" when undefined or "N/A" |
| MeasurementTable.RenderDate | IDHealth_WebApp-main/src/components/measurament/MeasuramentDataTable.js:102 | the formatted date, blank when undefined or "N/A" |
| MeasurementTable.RenderedRowIsStored | IDHealth_WebApp-main/src/components/measurament/MeasuramentDataTable.js:65-102 | a Thing is listed exactly when it has a stored view, and its rendered row is that view |
| MeasurementTable.TableShowsStoredRows | IDHealth_WebApp-main/src/components/measurament/MeasuramentDataTable.js:65-102 | the table shows each stored measurement in order: glucose with " mg/dl", the slot as stored (blank for "N/A"), the insertion time as stored, the formatted date |
| MeasurementTable.DeleteTarget | IDHealth_WebApp-main/src/components/measurament/MeasuramentDataTable.js:43-46 | the row of the button, undefined past the data |
| MeasurementTable.HandleDeleteClick | IDHealth_WebApp-main/src/components/measurament/MeasuramentDataTable.js:17-26 | the success toast always; a changed Pod means the list lost exactly the rows with the clicked row's URL |
| MeasurementTable.ClickDeletesThatRow | IDHealth_WebApp-main/src/components/measurament/MeasuramentDataTable.js:17-46 | a click on a stored row removes just its Thing, drops its rows and shows success |
| MeasurementTable.ClickOnMissingRowChangesNothing | IDHealth_WebApp-main/src/components/measurament/MeasuramentDataTable.js:17-46 | a click past the data or on a row whose Thing is gone changes nothing and shows success |
| MeasurementTable.FailedDeleteReportsSuccess | IDHealth_WebApp-main/src/components/measurament/MeasuramentDataTable.js:17-26 | an unreadable day deletes nothing yet reports success |
| Dashboard.NormalizeRole | IDHealth_WebApp-main/src/components/Dashboard.js:89 | the normalised role is trimmed, lower-case and no longer than the role; that upper-case letters are folded is CaseVariantNormalizes |
| Dashboard.NormalizeRoleIdempotent | IDHealth_WebApp-main/src/components/Dashboard.js:89-103 | normalising a normalised role changes nothing |
| Dashboard.CaseVariantNormalizes | IDHealth_WebApp-main/src/components/Dashboard.js:89 | a role differing from a normalised name only in letter case normalises to that name |
| Dashboard.IsAuthorizedRole | IDHealth_WebApp-main/src/components/Dashboard.js:89 | with valid names, accepted exactly when the normalised role is the patient or the doctor name; a role blank once trimmed is refused |
| Dashboard.CaseVariantIsAccepted | IDHealth_WebApp-main/src/components/Dashboard.js:89 | either role name in any mix of letter case passes the whitelist |
| Dashboard.FetchProfileInfo | IDHealth_WebApp-main/src/components/Dashboard.js:71-114 | a profile is set exactly when storage and query succeed, the role is whitelisted and an email exists; it has the normalised role, the email without its first "mailto:" and the first storage URL; unauthorised exactly when the role fails the whitelist |
| Dashboard.NormalFormIsFixed | IDHealth_WebApp-main/src/components/Dashboard.js:89 | a role name without surrounding whitespace or upper-case letters is unchanged by the normalisation |
| Dashboard.StoredRoleIsAcceptedAgain | IDHealth_WebApp-main/src/components/Dashboard.js:89-103 | the stored role is the patient or the doctor name and passes the check again unchanged |
| Dashboard.DecoratedRoleIsAccepted | IDHealth_WebApp-main/src/components/Dashboard.js:89 | the patient role padded with whitespace is accepted |
| Dashboard.OnProfileChange | IDHealth_WebApp-main/src/components/Dashboard.js:61-69 | patient info is fetched exactly for a profile with a non-empty storage URL; the count in addition exactly for the patient role |
| Dashboard.DoctorsAreNotCounted | IDHealth_WebApp-main/src/components/Dashboard.js:65-67 | a doctor's profile never triggers the count |
| Dashboard.DayTotal | IDHealth_WebApp-main/src/components/Dashboard.js:185-190 | the sum succeeds exactly when every day container is readable; a failure is the error of one of them |
| Dashboard.DayTotalAppend | IDHealth_WebApp-main/src/components/Dashboard.js:185-190 | counts over two runs of day containers add up |
| Dashboard.FailurePersists | IDHealth_WebApp-main/src/components/Dashboard.js:185-195 | the first failing day container ends the count with its error |
| Dashboard.Classify | IDHealth_WebApp-main/src/components/Dashboard.js:194-205 | logout exactly when the message contains "401"; otherwise the error state carries the message |
| Dashboard.FetchCountMeasure | IDHealth_WebApp-main/src/components/Dashboard.js:174-209 | the loop's total equals the reference count: the summed contained-resource counts, or the classified first error |
| Dashboard.CountMeasure | IDHealth_WebApp-main/src/components/Dashboard.js:174-209 | the reference count: an unreadable root gives its classified error; a count is the day total of the root's contained resources |
| Dashboard.NoDaysCountZero | IDHealth_WebApp-main/src/components/Dashboard.js:177-193 | no day containers gives a count of 0 |
| Dashboard.NotFoundUnder401UrlLogsOut | IDHealth_WebApp-main/src/components/Dashboard.js:195-198 | a missing measurements root under a URL containing "401" logs out |
| Dashboard.PatientFileUrlDoublesSlash | IDHealth_WebApp-main/src/components/Dashboard.js:148 | a storage URL ending in a slash yields a file URL with "//" |
| Dashboard.FetchPatientInfo | IDHealth_WebApp-main/src/components/Dashboard.js:145-172 | the patient loader is called exactly when the file check is truthy; a falsy check gives false, an error its message |
| Dashboard.GetFile | IDHealth_WebApp-main/src/components/Dashboard.js:150 | the check succeeds, truthy, exactly for a stored and readable file; otherwise it throws |
| Dashboard.PatientFileDecidesLoading | IDHealth_WebApp-main/src/components/Dashboard.js:145-172 | against the Pod the falsy branch never runs; the loader runs exactly for a stored, readable file, and otherwise the fetch error is the page error |
| ValueGraph.Contribution | IDHealth_WebApp-main/src/pages/ModelValueGraph.js:35-47 | a Thing contributes exactly when both literals are present and the time string is non-empty |
| ValueGraph.Contributions | IDHealth_WebApp-main/src/pages/ModelValueGraph.js:34-54 | length bound only; content by ContributionsAppend and ContributionsSingle |
| ValueGraph.ContributionsAppend | IDHealth_WebApp-main/src/pages/ModelValueGraph.js:34-54 | the points of a concatenation are the points of each part, in order |
| ValueGraph.ContributionsSingle | IDHealth_WebApp-main/src/pages/ModelValueGraph.js:34-54 | a single Thing yields its point when it contributes, otherwise nothing |
| ValueGraph.FirstPerKey | IDHealth_WebApp-main/src/pages/ModelValueGraph.js:49-52 | the keys kept are the distinct insulin values in order of first occurrence |
| ValueGraph.FirstOccurrenceWins | IDHealth_WebApp-main/src/pages/ModelValueGraph.js:50-52 | every insulin value that occurs is kept, and the entry kept for it is the first contributing point with that value |
| ValueGraph.FirstOccurrenceAt | IDHealth_WebApp-main/src/pages/ModelValueGraph.js:50-52 | the entry kept at each position is the first contributing point with its key |
| ValueGraph.ChartOf | IDHealth_WebApp-main/src/pages/ModelValueGraph.js:57-67 | the four arrays are aligned, one position per map entry |
| ValueGraph.FetchData | IDHealth_WebApp-main/src/pages/ModelValueGraph.js:19-82 | a read error keeps the chart; otherwise the values are the distinct insulin values in first-occurrence order, aligned with the other arrays |
| ValueGraph.BarsComeFromFirstOccurrences | IDHealth_WebApp-main/src/pages/ModelValueGraph.js:49-67 | every contributing insulin value gets a bar, labelled with that value, whose glucose value and slot come from the first reading with it |
| ValueGraph.TickLabel | IDHealth_WebApp-main/src/pages/ModelValueGraph.js:143-146 | the time at the index, blank past the end |
| ValueGraph.TickOfBarIsFirstSlot | IDHealth_WebApp-main/src/pages/ModelValueGraph.js:49-67 | below each bar the axis shows the slot of the first reading with that insulin value |
| AccessRecords.MapAccesses | IDHealth_WebApp-main/src/pages/AccessRecoredPage.js:40-52 | none exactly when some timestamp is missing or not a number; otherwise one formatted access per item, in order |
| AccessRecords.MapAccessesAppend | IDHealth_WebApp-main/src/pages/AccessRecoredPage.js:40-52 | mapping a concatenation succeeds exactly when both parts do, and concatenates them |
| AccessRecords.FetchAccess | IDHealth_WebApp-main/src/pages/AccessRecoredPage.js:29-59 | a falsy storage URL, a rejection, a non-array or a bad timestamp keep the state; a change is exactly the mapped items |
| AccessRecords.ValidResponseReplacesState | IDHealth_WebApp-main/src/pages/AccessRecoredPage.js:40-52 | a valid array reply replaces the state with one formatted access per item, the timestamp taken as seconds |
| AccessRecords.OnAccessEvent | IDHealth_WebApp-main/src/pages/AccessRecoredPage.js:23-27 | an event for another pod, or with an empty pod URL, changes nothing |
| AccessRecords.EventForOwnPodRefetches | IDHealth_WebApp-main/src/pages/AccessRecoredPage.js:23-52 | an event for the profile's own pod with a valid array reply replaces the list with the formatted accesses; a non-array reply keeps it |

## Left out

- Rendering, toasts other than those listed in the outcomes, logging, the loading flags and navigation other than the insert page's are not modelled. They carry no data.
- The `/predict` reply is not modelled. The page only logs it.
- Timing, polling and concurrency are not modelled. This covers the chart's 60-second refresh, overlapping async handlers and stale React state. Each handler is one atomic step on the Pod.
- The blockchain event subscription and the contract call are not modelled. They are parameters of `AccessRecords.OnAccessEvent` and `AccessRecords.FetchAccess`.
- The scikit-learn model, the scaler and pandas are not modelled. The prediction is an uninterpreted function of the feature vector. Training is a success flag.
- The server's model file name differs from the one the prediction server loads ('all_column_model.pkl' against 'all_column_model_.pkl'). This is not modelled, since files are out of scope.
- Floating point is not modelled. Numbers are unbounded reals plus NaN, without Infinity or rounding. `parseFloat`, `toString`, `toFixed` and the date formatters are parameters.
- String `<` compares code points, not UTF-16 code units. The two agree below U+10000.
- `toLowerCase` is modelled on ASCII letters only.
- A `/train` body whose `features` is not a list of records is a single `NotRows` case. It is not given pandas' behaviour.
- `getPatientInfo` and the profile query are not part of this model; only their results enter.
- The hard-coded Pod URLs become a storage-root parameter.
- `AccessRecoredPage.js` reads `profile.storageUrl` on a null profile (line 17). This throws during rendering and is not modelled.
- Date strings are not modelled as dates. The table's `new Date("YYYY-MM-DD")` is read in UTC and formatted in local time, which can show the previous day.
- The dashboard count sums the contained resources of each day container, not the Things inside the datasets. The model follows the code.
- ModelPage.HandlePredict: its contract states only the frame facts. The branch outcomes are stated by `ModelPage.BasalAdviceWritesNothing`, `ModelPage.DoseRecordIsSaved` and `ModelPage.FirstPredictionOfTheDay`.
- InsertMeasurement.HandleSubmit: its contract does not restate the whole stored Thing. That is the round trip `InsertMeasurement.SubmitThenFetch`.
- InsertMeasurement.SubmitThenFetch: the round trip holds only for the account whose storage URL is the pod the insert page hard-codes (InsertMeasurement.js:28), since the list reads under the profile's storage URL. For every other profile the reading goes to that fixed pod, or fails on its access control, and is never listed (`InsertMeasurement.OtherProfileListsNothingNew`). Access control on the fixed pod is not modelled beyond the fault maps.
- AccessRecords.OnAccessEvent: its contract gives only the no-change cases. A matching event is stated by `AccessRecords.EventForOwnPodRefetches`.
- Pod.Save: the update of a fetched dataset is modelled as a whole replacement, not as the patch of its changes. A resource changed by someone else between the read and the save is not modelled.

## Findings

| source | as written | input that shows it | evidently intended | confidence | as-written member | corrected member |
|---|---|---|---|---|---|---|
| IDHealth_WebApp-main/src/pages/TrainingDateUtils.js:22-43 | on a 404 the log is created by saving a new empty dataset, and the record is then set into that same unbound dataset and saved again; an unbound dataset is saved create-only, so the second save fails with 412 and the error is only logged | the first training run: no log at the URL, no faults | the new log holds the date of the run | medium, not executed | TrainingDates.SaveTrainingDateAsWritten, TrainingDates.FirstRunLogsNoDate | TrainingDates.SaveTrainingDate, TrainingDates.SaveAppendsOneRecord |
| IDHealth_WebApp-main/src/pages/ModelPage.js:109-137 | on a 404 the container is created, but the record is set into a new unbound dataset; its create-only save fails with 412 and the error toast is shown | the first dose of a day: no prediction container, no faults | the new container holds the record and the success toast is shown | medium, not executed | ModelPage.SavePredictionAsWritten, ModelPage.FirstPredictionAsWrittenFails | ModelPage.SavePrediction, ModelPage.FirstPredictionOfTheDay |

=== FILE: access_records.dfy ===
/**
 * The access-log page: the accesses recorded on chain for a pod, each
 * timestamp checked and formatted. The contract call itself is a parameter
 * (`AccessResponse`); `fmt` stands for `new Date(ms).toLocaleString()`.
 */
module AccessRecords {
  import opened Wrappers
  import opened Js

  /** `item.timestamp`: null/undefined, or present and coerced by `Number(...)`. */
  datatype RawTimestamp = Nullish | Coerced(n: Number)

  datatype AccessItem = AccessItem(server: string, timestamp: RawTimestamp)

  /** What `getAccesses` yields: a rejection, a non-array value, or an array. */
  datatype AccessResponse = Rejected | NotArray | Items(items: seq<AccessItem>)

  datatype Access = Access(server: string, timestamp: string)

  /** The check made on each item before it is mapped. */
  predicate ValidTimestamp(t: RawTimestamp)
  {
    t.Coerced? && t.n.Num?
  }

  /** The timestamp is in seconds; `Date` takes milliseconds. */
  function Formatted(item: AccessItem, fmt: real -> string): (r: Access)
    requires ValidTimestamp(item.timestamp)
    ensures r.server == item.server
  {
    Access(item.server, fmt(1000.0 * item.timestamp.n.v))
  }

  /** `response.map(...)`: one invalid timestamp throws, so the mapping is all or nothing. */
  function MapAccesses(items: seq<AccessItem>, fmt: real -> string): (r: Option<seq<Access>>)
    ensures r.None? <==> exists i :: 0 <= i < |items| && !ValidTimestamp(items[i].timestamp)
    ensures r.Some? ==>
              && |r.value| == |items|
              && forall i :: 0 <= i < |items| ==> r.value[i] == Formatted(items[i], fmt)
  {
    if |items| == 0 then Some([])
    else
      var front := MapAccesses(items[..|items| - 1], fmt);
      var last := items[|items| - 1];
      if front.None? then
        var k :| 0 <= k < |items| - 1 && !ValidTimestamp(items[..|items| - 1][k].timestamp);
        assert !ValidTimestamp(items[k].timestamp);
        None
      else if !ValidTimestamp(last.timestamp) then None
      else Some(front.value + [Formatted(last, fmt)])
  }

  /** Mapping a concatenation maps each part; it fails when either part fails. */
  lemma MapAccessesAppend(a: seq<AccessItem>, b: seq<AccessItem>, fmt: real -> string)
    ensures MapAccesses(a + b, fmt).Some? <==> MapAccesses(a, fmt).Some? && MapAccesses(b, fmt).Some?
    ensures MapAccesses(a + b, fmt).Some? ==>
              MapAccesses(a + b, fmt).value == MapAccesses(a, fmt).value + MapAccesses(b, fmt).value
  {
    var ab := a + b;
    if MapAccesses(ab, fmt).None? {
      var i :| 0 <= i < |ab| && !ValidTimestamp(ab[i].timestamp);
      if i < |a| {
        assert ab[i] == a[i];
      } else {
        assert ab[i] == b[i - |a|];
      }
    } else {
      forall i | 0 <= i < |a| ensures ValidTimestamp(a[i].timestamp) { assert ab[i] == a[i]; }
      forall i | 0 <= i < |b| ensures ValidTimestamp(b[i].timestamp) { assert ab[|a| + i] == b[i]; }
    }
  }

  /**
   * `fetchAccess`: nothing happens for a falsy `storageUrl`; a rejection, a
   * non-array response or an invalid timestamp leaves the state unchanged.
   */
  function FetchAccess(storageUrl: Option<string>, response: AccessResponse, previous: Option<seq<Access>>, fmt: real -> string): (r: Option<seq<Access>>)
    ensures (storageUrl.None? || storageUrl.value == "") ==> r == previous
    ensures r != previous ==>
              && storageUrl.Some? && storageUrl.value != "" && response.Items?
              && MapAccesses(response.items, fmt).Some?
              && r == MapAccesses(response.items, fmt)
  {
    if storageUrl.None? || storageUrl.value == "" then previous
    else match response
      case Items(items) =>
        var mapped := MapAccesses(items, fmt);
        if mapped.Some? then mapped else previous
      case _ => previous
  }

  /** A valid array response replaces the state with exactly its mapped items. */
  lemma ValidResponseReplacesState(storageUrl: string, items: seq<AccessItem>, previous: Option<seq<Access>>, fmt: real -> string)
    requires storageUrl != ""
    requires forall i :: 0 <= i < |items| ==> ValidTimestamp(items[i].timestamp)
    ensures var r := FetchAccess(Some(storageUrl), Items(items), previous, fmt);
            && r.Some? && |r.value| == |items|
            && forall i :: 0 <= i < |items| ==> r.value[i] == Access(items[i].server, fmt(1000.0 * items[i].timestamp.n.v))
  {
  }

  /**
   * A `PodAccessRecorded` event triggers a refetch only when its pod URL
   * equals the storage URL of the profile the listener was registered with.
   */
  predicate RefetchOnEvent(podUrl: string, storageUrl: Option<string>)
  {
    storageUrl.Some? && podUrl == storageUrl.value
  }

  /** The state after an event: a refetch, or no change. */
  function OnAccessEvent(podUrl: string, storageUrl: Option<string>, response: AccessResponse, previous: Option<seq<Access>>, fmt: real -> string): (r: Option<seq<Access>>)
    ensures !RefetchOnEvent(podUrl, storageUrl) ==> r == previous
    ensures podUrl == "" ==> r == previous
  {
    if RefetchOnEvent(podUrl, storageUrl) then FetchAccess(storageUrl, response, previous, fmt) else previous
  }

  /**
   * An event for the profile's own pod refetches: with a valid array reply
   * the list becomes exactly the formatted accesses, and any other reply
   * keeps the list.
   */
  lemma EventForOwnPodRefetches(storageUrl: string, response: AccessResponse, previous: Option<seq<Access>>, fmt: real -> string)
    requires storageUrl != ""
    ensures var r := OnAccessEvent(storageUrl, Some(storageUrl), response, previous, fmt);
            && (response.Items? && (forall i :: 0 <= i < |response.items| ==> ValidTimestamp(response.items[i].timestamp)) ==>
                  r.Some? && |r.value| == |response.items|
                  && forall i :: 0 <= i < |response.items| ==>
                       r.value[i] == Access(response.items[i].server, fmt(1000.0 * response.items[i].timestamp.n.v)))
            && (!response.Items? ==> r == previous)
  {
    if response.Items? && forall i :: 0 <= i < |response.items| ==> ValidTimestamp(response.items[i].timestamp) {
      ValidResponseReplacesState(storageUrl, response.items, previous, fmt);
    }
  }
}

=== FILE: dashboard.dfy ===
/**
 * The dashboard: resolving the logged-in user's profile and role, deciding
 * which fetches a profile triggers, counting the stored measurements and
 * checking for the patient file. The SPARQL profile query, the role lookup
 * and `getPatientInfo` are calls into code outside this model and arrive as
 * their results.
 */
module Dashboard {
  import opened Wrappers
  import opened Pod
  import Strings

  /**
   * The two accepted roles. Their values live in a constants file outside
   * this model; all the code relies on is that they are two different,
   * non-empty strings already in normalised form: no surrounding
   * whitespace, no upper-case letter.
   */
  datatype RoleNames = RoleNames(patient: string, doctor: string)
  {
    predicate Valid()
    {
      && patient != doctor && patient != "" && doctor != ""
      && Strings.IsTrimmed(patient) && Strings.IsLower(patient)
      && Strings.IsTrimmed(doctor) && Strings.IsLower(doctor)
    }
  }

  /** `role.trim().toLowerCase()`. */
  function NormalizeRole(role: string): (r: string)
    ensures |r| <= |role|
    ensures Strings.IsTrimmed(r)
    ensures Strings.IsLower(r)
  {
    Strings.TrimIsTrimmed(role);
    Strings.ToLowerKeepsTrimmed(Strings.Trim(role));
    Strings.ToLower(Strings.Trim(role))
  }

  /** Normalising twice is normalising once. */
  lemma NormalizeRoleIdempotent(role: string)
    ensures NormalizeRole(NormalizeRole(role)) == NormalizeRole(role)
  {
    var n := NormalizeRole(role);
    Strings.TrimOfTrimmed(n);
    Strings.ToLowerIdempotent(Strings.Trim(role));
  }

  /** A trimmed lower-case string is its own normal form. */
  lemma NormalFormIsFixed(s: string)
    requires Strings.IsTrimmed(s) && Strings.IsLower(s)
    ensures NormalizeRole(s) == s
  {
    Strings.TrimOfTrimmed(s);
    Strings.ToLowerOfLower(s);
  }

  /**
   * Upper-case letters are folded: a role that differs from a normalised
   * name only in the case of its letters normalises to that name.
   */
  lemma CaseVariantNormalizes(s: string, name: string)
    requires Strings.IsTrimmed(name)
    requires |s| == |name| && forall i :: 0 <= i < |s| ==> Strings.LowerChar(s[i]) == name[i]
    ensures NormalizeRole(s) == name
  {
    if |s| > 0 {
      assert Strings.LowerChar(s[0]) == name[0];
      assert Strings.LowerChar(s[|s| - 1]) == name[|s| - 1];
    }
    assert Strings.IsTrimmed(s);
    Strings.TrimOfTrimmed(s);
    assert Strings.ToLower(s) == name;
  }

  /**
   * The whitelist: a missing or empty role is refused, as is any other role.
   * With valid names the empty-string guard is subsumed, and a role that is
   * blank once trimmed is refused.
   */
  predicate IsAuthorizedRole(role: Option<string>, names: RoleNames)
    ensures names.Valid() ==>
              (IsAuthorizedRole(role, names) <==>
                 role.Some? && (NormalizeRole(role.value) == names.patient || NormalizeRole(role.value) == names.doctor))
    ensures names.Valid() && role.Some? && Strings.Trim(role.value) == "" ==> !IsAuthorizedRole(role, names)
  {
    && role.Some? && role.value != ""
    && (NormalizeRole(role.value) == names.patient || NormalizeRole(role.value) == names.doctor)
  }

  /** Either name in any mix of letter case is accepted. */
  lemma CaseVariantIsAccepted(names: RoleNames, s: string, name: string)
    requires names.Valid() && (name == names.patient || name == names.doctor)
    requires |s| == |name| && forall i :: 0 <= i < |s| ==> Strings.LowerChar(s[i]) == name[i]
    ensures IsAuthorizedRole(Some(s), names)
  {
    CaseVariantNormalizes(s, name);
  }

  datatype Profile = Profile(name: string, email: string, storageUrl: Option<Url>, role: string)

  /** What the SPARQL profile query yields; `email` is absent when the profile has none. */
  datatype ProfileInfo = ProfileInfo(name: string, email: Option<string>)

  /**
   * The outcome of `fetchProfileInfo`: the profile is set; or the
   * unauthorized error is raised and the user is logged out; or the error
   * state carries the message of whatever threw.
   */
  datatype ProfileOutcome = ProfileSet(profile: Profile) | Unauthorized | ProfileError(message: string)

  /** The engine's message for `undefined.replace(...)`. */
  const MissingEmailMessage := "Cannot read properties of undefined (reading 'replace')"

  /**
   * `fetchProfileInfo`. `storages` is the profile document's `pim:storage`
   * URLs, or the message of the error reading them; `query` the profile
   * query's result; `role` the role found in the profile, `None` when it is
   * missing or its lookup failed (the lookup catches its own errors).
   */
  function FetchProfileInfo(storages: Result<seq<Url>, string>, query: Result<ProfileInfo, string>,
                            role: Option<string>, names: RoleNames): (r: ProfileOutcome)
    ensures r.ProfileSet? <==>
              storages.Success? && query.Success? && IsAuthorizedRole(role, names) && query.value.email.Some?
    ensures r.Unauthorized? <==> storages.Success? && query.Success? && !IsAuthorizedRole(role, names)
    ensures r.ProfileSet? ==>
              && r.profile.name == query.value.name
              && r.profile.role == NormalizeRole(role.value)
              && r.profile.email == Strings.ReplaceFirst(query.value.email.value, "mailto:", "")
              && (r.profile.storageUrl.Some? <==> |storages.value| > 0)
              && (r.profile.storageUrl.Some? ==> r.profile.storageUrl.value == storages.value[0])
  {
    match storages
    case Failure(m) => ProfileError(m)
    case Success(urls) =>
      var pod := if |urls| > 0 then Some(urls[0]) else None;
      match query
      case Failure(m) => ProfileError(m)
      case Success(info) =>
        if !IsAuthorizedRole(role, names) then Unauthorized
        else match info.email
          case None => ProfileError(MissingEmailMessage)
          case Some(email) =>
            ProfileSet(Profile(info.name, Strings.ReplaceFirst(email, "mailto:", ""), pod, NormalizeRole(role.value)))
  }

  /** The stored role is one of the two names, and it passes the check again unchanged. */
  lemma StoredRoleIsAcceptedAgain(storages: Result<seq<Url>, string>, query: Result<ProfileInfo, string>,
                                  role: Option<string>, names: RoleNames)
    requires names.Valid()
    requires FetchProfileInfo(storages, query, role, names).ProfileSet?
    ensures var p := FetchProfileInfo(storages, query, role, names).profile;
            && (p.role == names.patient || p.role == names.doctor)
            && IsAuthorizedRole(Some(p.role), names)
            && FetchProfileInfo(storages, query, Some(p.role), names).profile.role == p.role
  {
    NormalFormIsFixed(names.patient);
    NormalFormIsFixed(names.doctor);
  }

  /** A role accepted once its case and surrounding blanks are normalised. */
  lemma DecoratedRoleIsAccepted(names: RoleNames, pad: string)
    requires names.Valid()
    requires forall i :: 0 <= i < |pad| ==> Strings.IsJsWhitespace(pad[i])
    ensures IsAuthorizedRole(Some(pad + names.patient + pad), names)
  {
    Strings.TrimPadded(pad, names.patient);
    NormalFormIsFixed(names.patient);
  }

  /** The fetches a profile triggers: the patient file always, the count only for patients. */
  datatype Fetches = Fetches(patientInfo: bool, count: bool)

  function OnProfileChange(profile: Option<Profile>, names: RoleNames): (r: Fetches)
    ensures r.count ==> r.patientInfo
    ensures r.patientInfo <==> profile.Some? && profile.value.storageUrl.Some? && profile.value.storageUrl.value != ""
    ensures r.count <==> r.patientInfo && profile.value.role == names.patient
  {
    if profile.Some? && profile.value.storageUrl.Some? && profile.value.storageUrl.value != "" then
      Fetches(true, profile.value.role == names.patient)
    else Fetches(false, false)
  }

  /** A doctor's profile never triggers the count. */
  lemma DoctorsAreNotCounted(p: Profile, names: RoleNames)
    requires names.Valid() && p.role == names.doctor
    ensures !OnProfileChange(Some(p), names).count
  {
  }

  /** The container of the day containers. */
  function MeasurementsRoot(storageUrl: string): Url
  {
    storageUrl + "measuraments"
  }

  /**
   * The day containers' contained-resource counts summed in order, or the
   * first read error met.
   */
  function DayTotal(pod: Pod, days: seq<Url>): (r: Result<nat, PodError>)
    ensures r.Success? <==> forall i :: 0 <= i < |days| ==> Read(pod, days[i]).Success?
    ensures r.Failure? ==> exists i :: 0 <= i < |days| && Read(pod, days[i]) == Failure(r.error)
  {
    if |days| == 0 then Success(0)
    else
      var front := days[..|days| - 1];
      match DayTotal(pod, front)
      case Failure(e) =>
        var i :| 0 <= i < |front| && Read(pod, front[i]) == Failure(e);
        assert days[i] == front[i];
        Failure(e)
      case Success(n) =>
        match Read(pod, days[|days| - 1])
        case Failure(e) => Failure(e)
        case Success(d) => Success(n + |d.contained|)
  }

  /** Counts of two runs of days add up. */
  lemma {:induction false} DayTotalAppend(pod: Pod, a: seq<Url>, b: seq<Url>)
    requires DayTotal(pod, a).Success? && DayTotal(pod, b).Success?
    ensures DayTotal(pod, a + b) == Success(DayTotal(pod, a).value + DayTotal(pod, b).value)
    decreases |b|
  {
    if |b| == 0 {
      assert a + b == a;
    } else {
      var b' := b[..|b| - 1];
      assert (a + b)[..|a + b| - 1] == a + b';
      assert (a + b)[|a + b| - 1] == b[|b| - 1];
      DayTotalAppend(pod, a, b');
    }
  }

  /** Once a prefix of the days fails, the whole walk fails with the same error. */
  lemma {:induction false} FailurePersists(pod: Pod, days: seq<Url>, k: nat)
    requires k <= |days| && DayTotal(pod, days[..k]).Failure?
    ensures DayTotal(pod, days) == DayTotal(pod, days[..k])
    decreases |days| - k
  {
    if k < |days| {
      assert days[..k + 1][..k] == days[..k];
      FailurePersists(pod, days, k + 1);
    } else {
      assert days[..k] == days;
    }
  }

  /** One more day container: its count is added, or its read error ends the sum. */
  lemma DayTotalStep(pod: Pod, days: seq<Url>, i: nat)
    requires i < |days| && DayTotal(pod, days[..i]).Success?
    ensures Read(pod, days[i]).Failure? ==> DayTotal(pod, days[..i + 1]) == Failure(Read(pod, days[i]).error)
    ensures Read(pod, days[i]).Success? ==>
              DayTotal(pod, days[..i + 1]) == Success(DayTotal(pod, days[..i]).value + |Read(pod, days[i]).value.contained|)
  {
    assert days[..i + 1][..i] == days[..i];
    assert days[..i + 1][i] == days[i];
  }

  datatype CountOutcome = Counted(total: nat) | LoggedOut | CountFailed(message: string)

  /** The catch block: a message mentioning 401 logs out, any other sets the error. */
  function Classify(e: PodError): (r: CountOutcome)
    ensures r.LoggedOut? <==> Strings.Contains(e.message, "401")
    ensures r.CountFailed? <==> !Strings.Contains(e.message, "401")
    ensures r.CountFailed? ==> r.message == e.message
  {
    if Strings.Contains(e.message, "401") then LoggedOut else CountFailed(e.message)
  }

  /** The count `fetchCountMeasure` arrives at, as a reference definition. */
  function CountMeasure(pod: Pod, storageUrl: string): (r: CountOutcome)
    ensures Read(pod, MeasurementsRoot(storageUrl)).Failure? ==> r == Classify(Read(pod, MeasurementsRoot(storageUrl)).error)
    ensures r.Counted? ==>
              && Read(pod, MeasurementsRoot(storageUrl)).Success?
              && DayTotal(pod, Read(pod, MeasurementsRoot(storageUrl)).value.contained) == Success(r.total)
  {
    match Read(pod, MeasurementsRoot(storageUrl))
    case Failure(e) => Classify(e)
    case Success(root) =>
      match DayTotal(pod, root.contained)
      case Success(n) => Counted(n)
      case Failure(e) => Classify(e)
  }

  /** `fetchCountMeasure`: one read of the root, then one read per day container. */
  method FetchCountMeasure(pod: Pod, storageUrl: string) returns (r: CountOutcome)
    ensures r == CountMeasure(pod, storageUrl)
  {
    var root := Read(pod, MeasurementsRoot(storageUrl));
    if root.Failure? {
      return Classify(root.error);
    }
    var days := root.value.contained;
    var total: nat := 0;
    var i := 0;
    while i < |days|
      invariant 0 <= i <= |days|
      invariant DayTotal(pod, days[..i]) == Success(total)
    {
      var day := Read(pod, days[i]);
      DayTotalStep(pod, days, i);
      if day.Failure? {
        FailurePersists(pod, days, i + 1);
        return Classify(day.error);
      }
      total := total + |day.value.contained|;
      i := i + 1;
    }
    assert days[..i] == days;
    r := Counted(total);
  }

  /** With no day containers the count is zero. */
  lemma NoDaysCountZero(pod: Pod, storageUrl: string)
    requires MeasurementsRoot(storageUrl) !in pod.readFaults && MeasurementsRoot(storageUrl) in pod.resources
    requires pod.resources[MeasurementsRoot(storageUrl)].contained == []
    ensures CountMeasure(pod, storageUrl) == Counted(0)
  {
  }

  /**
   * The 401 test reads the message text: a missing measurements root whose
   * URL happens to contain "401" logs the user out instead of reporting the
   * missing resource.
   */
  lemma NotFoundUnder401UrlLogsOut(pod: Pod, storageUrl: string)
    requires MeasurementsRoot(storageUrl) !in pod.readFaults && MeasurementsRoot(storageUrl) !in pod.resources
    requires Strings.Contains(storageUrl, "401")
    ensures CountMeasure(pod, storageUrl) == LoggedOut
  {
    var url := MeasurementsRoot(storageUrl);
    Strings.ContainsInfix("", storageUrl, "measuraments", "401");
    assert "" + storageUrl + "measuraments" == url;
    Strings.ContainsInfix("Fetching the Resource at [", url, "] failed: [404] [Not Found].", "401");
  }

  /** The patient file's URL: the storage URL, a slash, then the file path. */
  function PatientFileUrl(storageUrl: string): (u: Url)
    ensures |u| == |storageUrl| + |"/patient/Patient.ttl"| && u[..|storageUrl|] == storageUrl
  {
    storageUrl + "/patient/Patient.ttl"
  }

  /** Storage URLs end in a slash (the other paths append to them directly), so the file path gets two. */
  lemma PatientFileUrlDoublesSlash(storageUrl: string)
    requires |storageUrl| > 0 && storageUrl[|storageUrl| - 1] == '/'
    ensures PatientFileUrl(storageUrl)[|storageUrl| - 1..|storageUrl| + 1] == "//"
  {
    var u := PatientFileUrl(storageUrl);
    var n := |storageUrl|;
    assert u[n - 1] == storageUrl[n - 1] == '/';
    assert u[n] == "/patient/Patient.ttl"[0] == '/';
    assert u[n - 1..n + 1] == [u[n - 1], u[n]];
  }

  datatype PatientOutcome<P> = NoPatientFile | PatientLoaded(patient: P) | PatientError(message: string)

  /**
   * `fetchPatientInfo`: `file` is the truthiness of `getFile`'s result or its
   * error message; `load` is what `getPatientInfo` would give. The second
   * component says whether `getPatientInfo` was called at all.
   */
  function FetchPatientInfo<P>(file: Result<bool, string>, load: Result<P, string>): (r: (PatientOutcome<P>, bool))
    ensures r.1 <==> file == Success(true)
    ensures file == Success(false) ==> r.0 == NoPatientFile
    ensures file.Failure? ==> r.0 == PatientError(file.error)
    ensures r.0.PatientLoaded? <==> file == Success(true) && load.Success?
    ensures r.0.PatientLoaded? ==> r.0.patient == load.value
  {
    match file
    case Failure(m) => (PatientError(m), false)
    case Success(found) =>
      if !found then (NoPatientFile, false)
      else match load
        case Success(p) => (PatientLoaded(p), true)
        case Failure(m) => (PatientError(m), true)
  }

  /**
   * `getFile(url)`: the file's Blob, which is truthy, when it is stored;
   * otherwise the call throws with the fetch error's message.
   */
  function GetFile(pod: Pod, url: Url): (r: Result<bool, string>)
    ensures r.Success? <==> url !in pod.readFaults && url in pod.resources
    ensures r.Success? ==> r.value
    ensures url in pod.readFaults ==> r == Failure(pod.readFaults[url].message)
  {
    if url in pod.readFaults then Failure(pod.readFaults[url].message)
    else if url in pod.resources then Success(true)
    else Failure("Fetching the File failed: [404] [Not Found].")
  }

  /**
   * Against the Pod, the falsy branch is dead: a missing patient file makes
   * `getFile` throw, so it ends as the page error, and the patient loader
   * runs exactly when the file is stored and readable.
   */
  lemma PatientFileDecidesLoading<P>(pod: Pod, storageUrl: string, load: Result<P, string>)
    ensures var u := PatientFileUrl(storageUrl);
            var r := FetchPatientInfo(GetFile(pod, u), load);
            && r.0 != NoPatientFile
            && (r.1 <==> u !in pod.readFaults && u in pod.resources)
            && (!r.1 ==> r.0 == PatientError(GetFile(pod, u).error))
            && (r.1 ==> r.0 == if load.Success? then PatientLoaded(load.value) else PatientError(load.error))
  {
  }
}

=== FILE: insert_measurement.dfy ===
/**
 * The insert form's submit handler, and what a submitted reading looks like
 * when the measurements page lists the day again. `date` and `time` are the
 * clock's `YYYY-MM-DD` and `HH:mm:ss` renderings; `storageRoot` is the
 * storage URL the form writes under. That root is hard-coded in the form:
 * it is not the logged-in profile's storage URL, which is where the
 * measurements page reads.
 */
module InsertMeasurement {
  import opened Wrappers
  import opened Js
  import opened Pod
  import opened UploadDataToPod
  import MeasurementsPage

  datatype SubmitOutcome = SubmitOutcome(pod: Pod, toast: UploadToast, navigations: seq<string>)

  /**
   * `handleSubmit`: the form's text goes to the upload unvalidated (an
   * empty slot or value is sent as is), and since the upload never throws
   * the page navigates home twice, once after the upload and once after the
   * `try` block.
   */
  function HandleSubmit(pod: Pod, loggedIn: bool, storageRoot: string, date: string, time: string,
                        selectedTime: string, glucoseValue: string, name: string,
                        parseFloat: string -> Number, show: Number -> string): (r: SubmitOutcome)
    ensures r.navigations == ["/", "/"]
    ensures !loggedIn ==> r.pod == pod && r.toast == NotAuthenticated
    ensures r.pod != pod ==>
              && MeasurementsPage.DayUrl(storageRoot, date) in r.pod.resources
              && var things := r.pod.resources[MeasurementsPage.DayUrl(storageRoot, date)].things;
                 |things| > 0 && GetString(things[|things| - 1], TimestampProp) == Some(time)
  {
    var data := MeasurementData(selectedTime, glucoseValue, date, time);
    var up := Upload(pod, loggedIn, MeasurementsPage.DayUrl(storageRoot, date), data, name, parseFloat, show);
    SubmitOutcome(up.pod, up.toast, ["/", "/"])
  }

  /** What the day's list shows before the submit: its rows, or nothing for a missing day. */
  function ListedBefore(pod: Pod, storageRoot: string, date: string, parseDecimal: string -> Number): seq<MeasurementsPage.Entry>
  {
    var url := MeasurementsPage.DayUrl(storageRoot, date);
    if url in pod.resources then MeasurementsPage.ToEntries(pod.resources[url].things, date, parseDecimal) else []
  }

  /**
   * Round trip, for a profile whose storage URL is the root the form writes
   * under: when the value parses to `x`, the decimal serialisation of `x`
   * reads back as `x`, and the name is fresh, listing the day after a
   * submit shows the previous rows followed by the new reading.
   */
  lemma SubmitThenFetch(pod: Pod, storageRoot: string, date: string, time: string, selectedTime: string,
                        glucoseValue: string, name: string, x: real, previous: seq<MeasurementsPage.Entry>,
                        parseFloat: string -> Number, show: Number -> string, parseDecimal: string -> Number)
    requires MeasurementsPage.DayUrl(storageRoot, date) !in pod.readFaults
    requires MeasurementsPage.DayUrl(storageRoot, date) !in pod.writeFaults
    requires var url := MeasurementsPage.DayUrl(storageRoot, date);
             url in pod.resources ==>
               forall i :: 0 <= i < |pod.resources[url].things| ==> pod.resources[url].things[i].url != ThingUrl(url, name)
    requires parseFloat(glucoseValue) == Num(x) && parseDecimal(show(Num(x))) == Num(x)
    ensures var r := HandleSubmit(pod, true, storageRoot, date, time, selectedTime, glucoseValue, name, parseFloat, show);
            MeasurementsPage.FetchMeasurementsForDay(Some(storageRoot), date, r.pod, previous, parseDecimal)
            == ListedBefore(pod, storageRoot, date, parseDecimal)
               + [MeasurementsPage.Entry(ThingUrl(MeasurementsPage.DayUrl(storageRoot, date), name), x, selectedTime, date, time)]
  {
    var url := MeasurementsPage.DayUrl(storageRoot, date);
    var data := MeasurementData(selectedTime, glucoseValue, date, time);
    var t := MeasurementThing(url, name, data, parseFloat, show);
    var before := if url in pod.resources then pod.resources[url] else EmptyDataset;
    var after := Stored(pod, storageRoot, date, time, selectedTime, glucoseValue, name, parseFloat, show);
    var e := MeasurementsPage.Entry(t.url, x, selectedTime, date, time);
    assert MeasurementsPage.EntryOf(t, date, parseDecimal) == Some(e);
    assert MeasurementsPage.ToEntries([t], date, parseDecimal) == [e] by {
      assert [t][..0] == [];
    }
    MeasurementsPage.ToEntriesAppend(before.things, [t], date, parseDecimal);
    assert Read(after.pod, url) == Success(Dataset(before.things + [t], before.contained));
  }

  /**
   * A value that does not parse is still saved (as the serialisation of
   * NaN), but the list never shows it: the day's rows are unchanged.
   */
  lemma UnparsableValueIsSavedButNotListed(pod: Pod, storageRoot: string, date: string, time: string, selectedTime: string,
                                           glucoseValue: string, name: string, previous: seq<MeasurementsPage.Entry>,
                                           parseFloat: string -> Number, show: Number -> string, parseDecimal: string -> Number)
    requires MeasurementsPage.DayUrl(storageRoot, date) !in pod.readFaults
    requires MeasurementsPage.DayUrl(storageRoot, date) !in pod.writeFaults
    requires var url := MeasurementsPage.DayUrl(storageRoot, date);
             url in pod.resources ==>
               forall i :: 0 <= i < |pod.resources[url].things| ==> pod.resources[url].things[i].url != ThingUrl(url, name)
    requires parseFloat(glucoseValue) == NaN && parseDecimal(show(NaN)) == NaN
    ensures var r := HandleSubmit(pod, true, storageRoot, date, time, selectedTime, glucoseValue, name, parseFloat, show);
            && r.pod != pod
            && MeasurementsPage.FetchMeasurementsForDay(Some(storageRoot), date, r.pod, previous, parseDecimal)
               == ListedBefore(pod, storageRoot, date, parseDecimal)
  {
    var url := MeasurementsPage.DayUrl(storageRoot, date);
    var data := MeasurementData(selectedTime, glucoseValue, date, time);
    var t := MeasurementThing(url, name, data, parseFloat, show);
    var before := if url in pod.resources then pod.resources[url] else EmptyDataset;
    var after := Stored(pod, storageRoot, date, time, selectedTime, glucoseValue, name, parseFloat, show);
    assert MeasurementsPage.EntryOf(t, date, parseDecimal).None?;
    assert MeasurementsPage.ToEntries([t], date, parseDecimal) == [] by {
      assert [t][..0] == [];
    }
    MeasurementsPage.ToEntriesAppend(before.things, [t], date, parseDecimal);
    assert Read(after.pod, url) == Success(Dataset(before.things + [t], before.contained));
    GrownDatasetChangesPod(pod, after.pod, url, |before.things|);
  }

  /** A Pod whose dataset at `url` has more Things than before (none when it was missing) is a different Pod. */
  lemma GrownDatasetChangesPod(pod: Pod, after: Pod, url: Url, n: nat)
    requires n == (if url in pod.resources then |pod.resources[url].things| else 0)
    requires url in after.resources && |after.resources[url].things| == n + 1
    ensures after != pod
  {
    if url in pod.resources {
      assert after.resources[url] != pod.resources[url];
    } else {
      assert url in after.resources.Keys && url !in pod.resources.Keys;
    }
  }

  /** The Pod after a logged-in submit with a fresh name: the day's dataset gains the new Thing. */
  lemma Stored(pod: Pod, storageRoot: string, date: string, time: string, selectedTime: string,
               glucoseValue: string, name: string, parseFloat: string -> Number, show: Number -> string)
    returns (r: SubmitOutcome)
    requires MeasurementsPage.DayUrl(storageRoot, date) !in pod.readFaults
    requires MeasurementsPage.DayUrl(storageRoot, date) !in pod.writeFaults
    requires var url := MeasurementsPage.DayUrl(storageRoot, date);
             url in pod.resources ==>
               forall i :: 0 <= i < |pod.resources[url].things| ==> pod.resources[url].things[i].url != ThingUrl(url, name)
    ensures r == HandleSubmit(pod, true, storageRoot, date, time, selectedTime, glucoseValue, name, parseFloat, show)
    ensures var url := MeasurementsPage.DayUrl(storageRoot, date);
            var before := if url in pod.resources then pod.resources[url] else EmptyDataset;
            && r.pod.readFaults == pod.readFaults
            && url in r.pod.resources
            && r.pod.resources[url] ==
               Dataset(before.things + [MeasurementThing(url, name, MeasurementData(selectedTime, glucoseValue, date, time), parseFloat, show)], before.contained)
  {
    var url := MeasurementsPage.DayUrl(storageRoot, date);
    UploadAppendsOneThing(pod, url, MeasurementData(selectedTime, glucoseValue, date, time), name, parseFloat, show);
    r := HandleSubmit(pod, true, storageRoot, date, time, selectedTime, glucoseValue, name, parseFloat, show);
  }

  /** Day containers under different storage roots are different URLs. */
  lemma DayUrlInjective(a: string, b: string, date: string)
    requires a != b
    ensures MeasurementsPage.DayUrl(a, date) != MeasurementsPage.DayUrl(b, date)
  {
    var ua := MeasurementsPage.DayUrl(a, date);
    var ub := MeasurementsPage.DayUrl(b, date);
    if |a| == |b| {
      assert ua[..|a|] == a && ub[..|b|] == b;
    } else {
      assert |ua| != |ub|;
    }
  }

  /**
   * For every other profile the submit is invisible: when the profile's
   * storage URL differs from the root the form writes under, listing the
   * day afterwards gives what it gave before, whatever the submit did.
   */
  lemma OtherProfileListsNothingNew(pod: Pod, loggedIn: bool, insertRoot: string, listRoot: string, date: string, time: string,
                                    selectedTime: string, glucoseValue: string, name: string, previous: seq<MeasurementsPage.Entry>,
                                    parseFloat: string -> Number, show: Number -> string, parseDecimal: string -> Number)
    requires listRoot != insertRoot
    ensures var r := HandleSubmit(pod, loggedIn, insertRoot, date, time, selectedTime, glucoseValue, name, parseFloat, show);
            MeasurementsPage.FetchMeasurementsForDay(Some(listRoot), date, r.pod, previous, parseDecimal)
            == MeasurementsPage.FetchMeasurementsForDay(Some(listRoot), date, pod, previous, parseDecimal)
  {
    DayUrlInjective(listRoot, insertRoot, date);
    var u := MeasurementsPage.DayUrl(listRoot, date);
    var r := HandleSubmit(pod, loggedIn, insertRoot, date, time, selectedTime, glucoseValue, name, parseFloat, show);
    assert Read(r.pod, u) == Read(pod, u);
  }
}

=== FILE: js.dfy ===
/**
 * The slice of JavaScript and JSON value semantics the application relies on:
 * numbers produced by `parseFloat` and arithmetic by nonzero constants,
 * the `<=` comparison, `JSON.stringify` of a number, and HTTP replies.
 */
module Js {

  /**
   * A JavaScript number as the application can produce it. Divisions are by
   * nonzero constants only, so infinities never arise and are not modelled.
   */
  datatype Number = NaN | Num(v: real)

  /** `n / d` for a nonzero constant `d`; NaN propagates. */
  function Div(n: Number, d: real): (r: Number)
    requires d != 0.0
    ensures r.NaN? <==> n.NaN?
    ensures r.Num? ==> r.v * d == n.v
  {
    match n
    case NaN => NaN
    case Num(v) => Num(v / d)
  }

  /** `n * k`; NaN propagates. */
  function Mul(n: Number, k: real): (r: Number)
    ensures r.NaN? <==> n.NaN?
  {
    match n
    case NaN => NaN
    case Num(v) => Num(v * k)
  }

  /** JavaScript's `n <= bound`, which is false whenever `n` is NaN. */
  predicate AtMost(n: Number, bound: real)
  {
    n.Num? && n.v <= bound
  }

  /** A JSON scalar as the application sends it: `JSON.stringify` writes NaN as `null`. */
  datatype Json = JNull | JNum(n: real)

  function ToJson(n: Number): (j: Json)
    ensures j.JNull? <==> n.NaN?
    ensures n.Num? ==> j == JNum(n.v)
  {
    match n
    case NaN => JNull
    case Num(v) => JNum(v)
  }

  /** A JSON object in key order, as JavaScript builds it and Python's `json` reads it. */
  type JsonObject = seq<(string, Json)>

  /**
   * What a `fetch` call yields: either it rejects (network failure) or the
   * server answers with a status and a body that `response.json()` may or may
   * not parse.
   */
  datatype HttpReply = Unreachable | Responded(status: int, jsonBody: bool)

  /** `response.ok`: a status in the range 200-299. */
  predicate IsOk(status: int)
  {
    200 <= status <= 299
  }
}

=== FILE: measurement_table.dfy ===
/**
 * The measurements table: the cell renderers of its columns and the delete
 * button's click handler. A cell value is whatever the row object holds in
 * that column (`show` renders a number as a template literal does; `fmt`
 * stands for `format(new Date(value), "yyyy/MM/dd")`).
 */
module MeasurementTable {
  import opened Wrappers
  import opened Js
  import opened Pod
  import MeasurementsPage

  /** A column's value in a row: absent, a string, or a number. */
  datatype Cell = Undefined | Text(s: string) | Numeric(n: real)

  const NotAvailable := "N/A"
  const Unit := " mg/dl"

  /** The checks every renderer makes: `value !== undefined && value !== 'N/A'`. */
  predicate Present(c: Cell)
  {
    c != Undefined && c != Text(NotAvailable)
  }

  function Rendered(c: Cell, show: real -> string): string
    requires Present(c)
  {
    match c
    case Text(s) => s
    case Numeric(n) => show(n)
  }

  /** The glucose column: the value followed by the unit, or blank. */
  function RenderValue(c: Cell, show: real -> string): (r: string)
    ensures !Present(c) <==> r == ""
    ensures Present(c) ==> |r| >= |Unit| && r[..|r| - |Unit|] == Rendered(c, show) && r[|r| - |Unit|..] == Unit
  {
    if Present(c) then Rendered(c, show) + Unit else ""
  }

  /** The slot column: the text as is, or blank. */
  function RenderTime(c: Cell, show: real -> string): (r: string)
    ensures Present(c) ==> r == Rendered(c, show)
    ensures !Present(c) ==> r == ""
  {
    if Present(c) then Rendered(c, show) else ""
  }

  /** The insertion-time column: falls back to "N/A" rather than blank. */
  function RenderInsertionTime(c: Cell, show: real -> string): (r: string)
    ensures Present(c) ==> r == Rendered(c, show)
    ensures !Present(c) ==> r == NotAvailable
  {
    if Present(c) then Rendered(c, show) else NotAvailable
  }

  /** The date column: the formatted date, or blank. */
  function RenderDate(c: Cell, fmt: Cell -> string): (r: string)
    ensures Present(c) ==> r == fmt(c)
    ensures !Present(c) ==> r == ""
  {
    if Present(c) then fmt(c) else ""
  }

  /** The four text columns of one row as the table shows them. */
  datatype RowView = RowView(glucose: string, time: string, insertionTime: string, date: string)

  /** A page row through the renderers: the number in the glucose column, text in the others. */
  function RenderRow(e: MeasurementsPage.Entry, show: real -> string, fmt: Cell -> string): RowView
  {
    RowView(RenderValue(Numeric(e.value), show), RenderTime(Text(e.dateTime), show),
            RenderInsertionTime(Text(e.timestamp), show), RenderDate(Text(e.date), fmt))
  }

  function RenderRows(rows: seq<MeasurementsPage.Entry>, show: real -> string, fmt: Cell -> string): (r: seq<RowView>)
    ensures |r| == |rows|
    ensures forall i :: 0 <= i < |r| ==> r[i] == RenderRow(rows[i], show, fmt)
  {
    seq(|rows|, i requires 0 <= i < |rows| => RenderRow(rows[i], show, fmt))
  }

  /**
   * What a stored measurement should look like, read straight from the
   * Thing: the decimal with its unit, the slot (blank only for the literal
   * "N/A"), the insertion time exactly as stored, and the formatted day.
   */
  function StoredRow(t: Thing, date: string, parseDecimal: string -> Number, show: real -> string, fmt: Cell -> string): Option<RowView>
  {
    match (GetDecimal(t, GlucoseProp, parseDecimal), GetString(t, TimeProp), GetString(t, TimestampProp))
    case (Some(v), Some(slot), Some(ts)) =>
      Some(RowView(show(v) + Unit, if slot == NotAvailable then "" else slot, ts,
                   if date == NotAvailable then "" else fmt(Text(date))))
    case _ => None
  }

  /** The stored measurements of a day in container order, Things that are not measurements skipped. */
  function StoredRows(things: seq<Thing>, date: string, parseDecimal: string -> Number, show: real -> string, fmt: Cell -> string): seq<RowView>
  {
    if |things| == 0 then []
    else
      var rest := StoredRows(things[..|things| - 1], date, parseDecimal, show, fmt);
      match StoredRow(things[|things| - 1], date, parseDecimal, show, fmt)
      case Some(v) => rest + [v]
      case None => rest
  }

  /** One Thing: it is listed exactly when it has a stored view, and its rendered row is that view. */
  lemma RenderedRowIsStored(t: Thing, date: string, parseDecimal: string -> Number, show: real -> string, fmt: Cell -> string)
    ensures MeasurementsPage.EntryOf(t, date, parseDecimal).Some? <==> StoredRow(t, date, parseDecimal, show, fmt).Some?
    ensures MeasurementsPage.EntryOf(t, date, parseDecimal).Some? ==>
              RenderRow(MeasurementsPage.EntryOf(t, date, parseDecimal).value, show, fmt) == StoredRow(t, date, parseDecimal, show, fmt).value
  {
  }

  /**
   * The table shows every stored measurement of the day, in container
   * order: its glucose as `show(g) + " mg/dl"`, its slot and insertion time
   * unchanged (a slot that is literally "N/A" shows blank, an insertion time
   * "N/A" shows "N/A"), and the formatted date.
   */
  lemma {:induction false} TableShowsStoredRows(things: seq<Thing>, date: string, parseDecimal: string -> Number,
                                                show: real -> string, fmt: Cell -> string)
    ensures RenderRows(MeasurementsPage.ToEntries(things, date, parseDecimal), show, fmt) == StoredRows(things, date, parseDecimal, show, fmt)
    decreases |things|
  {
    if |things| > 0 {
      var front := things[..|things| - 1];
      var t := things[|things| - 1];
      TableShowsStoredRows(front, date, parseDecimal, show, fmt);
      RenderedRowIsStored(t, date, parseDecimal, show, fmt);
      var rows := MeasurementsPage.ToEntries(front, date, parseDecimal);
      match MeasurementsPage.EntryOf(t, date, parseDecimal)
      case Some(e) =>
        assert MeasurementsPage.ToEntries(things, date, parseDecimal) == rows + [e];
        assert RenderRows(rows + [e], show, fmt) == RenderRows(rows, show, fmt) + [RenderRow(e, show, fmt)];
      case None =>
    }
  }

  /** The row a delete button belongs to: `data[rowIndex]`, undefined past the end. */
  function DeleteTarget(data: seq<MeasurementsPage.Entry>, rowIndex: int): (r: Option<MeasurementsPage.Entry>)
    ensures r.Some? <==> 0 <= rowIndex < |data|
    ensures r.Some? ==> r.value == data[rowIndex]
  {
    if 0 <= rowIndex < |data| then Some(data[rowIndex]) else None
  }

  datatype DeleteToast = DeletedSuccessfully | DeleteFailed(message: string)

  datatype ClickOutcome = ClickOutcome(pod: Pod, entries: seq<MeasurementsPage.Entry>, toast: DeleteToast)

  /**
   * `handleDeleteClick` wired to the page's `handleDelete`: since that
   * handler catches every error itself, the click always reports success,
   * also when nothing was deleted.
   */
  function HandleDeleteClick(pod: Pod, storageUrl: string, date: string, data: seq<MeasurementsPage.Entry>, rowIndex: int): (r: ClickOutcome)
    ensures r.toast == DeletedSuccessfully
    ensures r.pod == pod ==> r.entries == data
    ensures r.pod != pod ==>
              && 0 <= rowIndex < |data|
              && r.entries == MeasurementsPage.Without(data, data[rowIndex].fileUrl)
              && forall i :: 0 <= i < |r.entries| ==> r.entries[i].fileUrl != data[rowIndex].fileUrl
  {
    var d := MeasurementsPage.HandleDelete(pod, storageUrl, date, data, DeleteTarget(data, rowIndex));
    ClickOutcome(d.pod, d.entries, DeletedSuccessfully)
  }

  /** A failed delete (here: the day cannot be read) still shows the success toast. */
  lemma FailedDeleteReportsSuccess(pod: Pod, storageUrl: string, date: string, data: seq<MeasurementsPage.Entry>, rowIndex: int)
    requires MeasurementsPage.DayUrl(storageUrl, date) in pod.readFaults
    ensures HandleDeleteClick(pod, storageUrl, date, data, rowIndex) == ClickOutcome(pod, data, DeletedSuccessfully)
  {
  }

  /**
   * A click on a row whose Thing is stored in a readable, writable day of
   * distinct subjects removes exactly that Thing, drops every row with its
   * URL from the list, and shows the success toast.
   */
  lemma ClickDeletesThatRow(pod: Pod, storageUrl: string, date: string, data: seq<MeasurementsPage.Entry>, rowIndex: int, i: nat)
    requires MeasurementsPage.DayUrl(storageUrl, date) !in pod.readFaults && MeasurementsPage.DayUrl(storageUrl, date) !in pod.writeFaults
    requires MeasurementsPage.DayUrl(storageUrl, date) in pod.resources
    requires 0 <= rowIndex < |data|
    requires var things := pod.resources[MeasurementsPage.DayUrl(storageUrl, date)].things;
             DistinctUrls(things) && i < |things| && things[i].url == data[rowIndex].fileUrl
    ensures var before := pod.resources[MeasurementsPage.DayUrl(storageUrl, date)].things;
            var r := HandleDeleteClick(pod, storageUrl, date, data, rowIndex);
            && r.toast == DeletedSuccessfully
            && MeasurementsPage.DayUrl(storageUrl, date) in r.pod.resources
            && r.pod.resources[MeasurementsPage.DayUrl(storageUrl, date)].things == before[..i] + before[i + 1..]
            && r.entries == MeasurementsPage.Without(data, data[rowIndex].fileUrl)
  {
    MeasurementsPage.DeleteRemovesExactlyThatThing(pod, storageUrl, date, data, data[rowIndex], i);
  }

  /** A click past the data, or on a row whose Thing is no longer stored, changes nothing yet reports success. */
  lemma ClickOnMissingRowChangesNothing(pod: Pod, storageUrl: string, date: string, data: seq<MeasurementsPage.Entry>, rowIndex: int)
    requires || !(0 <= rowIndex < |data|)
             || (Read(pod, MeasurementsPage.DayUrl(storageUrl, date)).Success?
                 && FindThing(Read(pod, MeasurementsPage.DayUrl(storageUrl, date)).value.things, data[rowIndex].fileUrl).None?)
    ensures HandleDeleteClick(pod, storageUrl, date, data, rowIndex) == ClickOutcome(pod, data, DeletedSuccessfully)
  {
  }
}

=== FILE: measurements_page.dfy ===
/**
 * The measurements page: the list of one day's glucose readings and the
 * delete action on a row. `parseDecimal` is the client library's decimal
 * reading; `storageUrl` is the profile's storage URL as interpolated text.
 */
module MeasurementsPage {
  import opened Wrappers
  import opened Js
  import opened Pod

  /** One table row. `value` is the glucose reading, `dateTime` the slot, `timestamp` the insertion time. */
  datatype Entry = Entry(fileUrl: Url, value: real, dateTime: string, date: string, timestamp: string)

  /** The container of one day's measurements. */
  function DayUrl(storageUrl: string, date: string): (u: Url)
    ensures |u| == |storageUrl| + |"measuraments/"| + |date| + 1
    ensures u[..|storageUrl|] == storageUrl && u[|u| - 1] == '/'
  {
    storageUrl + "measuraments/" + date + "/"
  }

  /** A Thing becomes a row only when it has a decimal value and both strings. */
  function EntryOf(t: Thing, date: string, parseDecimal: string -> Number): (r: Option<Entry>)
    ensures r.Some? <==>
              GetDecimal(t, GlucoseProp, parseDecimal).Some? && GetString(t, TimeProp).Some? && GetString(t, TimestampProp).Some?
    ensures r.Some? ==>
              && r.value.fileUrl == t.url && r.value.date == date
              && Some(r.value.value) == GetDecimal(t, GlucoseProp, parseDecimal)
              && Some(r.value.dateTime) == GetString(t, TimeProp)
              && Some(r.value.timestamp) == GetString(t, TimestampProp)
  {
    match (GetDecimal(t, GlucoseProp, parseDecimal), GetString(t, TimeProp), GetString(t, TimestampProp))
    case (Some(v), Some(dt), Some(ts)) => Some(Entry(t.url, v, dt, date, ts))
    case _ => None
  }

  /** The map-then-filter over the day's Things, order kept. */
  function ToEntries(things: seq<Thing>, date: string, parseDecimal: string -> Number): (r: seq<Entry>)
    ensures |r| <= |things|
    ensures forall i :: 0 <= i < |r| ==> r[i].date == date
  {
    if |things| == 0 then []
    else
      var rest := ToEntries(things[..|things| - 1], date, parseDecimal);
      match EntryOf(things[|things| - 1], date, parseDecimal)
      case Some(e) => rest + [e]
      case None => rest
  }

  /** Rows of a concatenation are the rows of each part. */
  lemma {:induction false} ToEntriesAppend(a: seq<Thing>, b: seq<Thing>, date: string, parseDecimal: string -> Number)
    ensures ToEntries(a + b, date, parseDecimal) == ToEntries(a, date, parseDecimal) + ToEntries(b, date, parseDecimal)
    decreases |b|
  {
    if |b| == 0 {
      assert a + b == a;
    } else {
      var b' := b[..|b| - 1];
      assert (a + b)[..|a + b| - 1] == a + b';
      assert (a + b)[|a + b| - 1] == b[|b| - 1];
      ToEntriesAppend(a, b', date, parseDecimal);
    }
  }

  /** Each row comes from a Thing of the day, and each well-formed Thing gives a row. */
  lemma {:induction false} ToEntriesMembership(things: seq<Thing>, date: string, parseDecimal: string -> Number)
    ensures forall i :: 0 <= i < |things| && EntryOf(things[i], date, parseDecimal).Some? ==>
              EntryOf(things[i], date, parseDecimal).value in ToEntries(things, date, parseDecimal)
    ensures forall e :: e in ToEntries(things, date, parseDecimal) ==>
              exists i :: 0 <= i < |things| && EntryOf(things[i], date, parseDecimal) == Some(e)
    decreases |things|
  {
    if |things| > 0 {
      var front := things[..|things| - 1];
      ToEntriesMembership(front, date, parseDecimal);
      forall e | e in ToEntries(front, date, parseDecimal)
        ensures exists i :: 0 <= i < |things| && EntryOf(things[i], date, parseDecimal) == Some(e)
      {
        var i :| 0 <= i < |front| && EntryOf(front[i], date, parseDecimal) == Some(e);
        assert things[i] == front[i];
      }
      forall i | 0 <= i < |things| - 1 && EntryOf(things[i], date, parseDecimal).Some?
        ensures EntryOf(things[i], date, parseDecimal).value in ToEntries(things, date, parseDecimal)
      {
        assert things[i] == front[i];
      }
    }
  }

  /**
   * `fetchMeasurementsForDay`: without a profile nothing is fetched; a read
   * error whose `response.status` is 404 empties the list; any other error
   * keeps the previous list.
   */
  function FetchMeasurementsForDay(storageUrl: Option<string>, date: string, pod: Pod, previous: seq<Entry>,
                                   parseDecimal: string -> Number): (r: seq<Entry>)
    ensures storageUrl.None? ==> r == previous
    ensures storageUrl.Some? && Read(pod, DayUrl(storageUrl.value, date)).Success? ==>
              r == ToEntries(Read(pod, DayUrl(storageUrl.value, date)).value.things, date, parseDecimal)
    ensures storageUrl.Some? && Read(pod, DayUrl(storageUrl.value, date)).Failure? ==>
              r == (if Read(pod, DayUrl(storageUrl.value, date)).error.responseStatus == Some(404) then [] else previous)
  {
    match storageUrl
    case None => previous
    case Some(root) =>
      match Read(pod, DayUrl(root, date))
      case Success(ds) => ToEntries(ds.things, date, parseDecimal)
      case Failure(e) => if e.responseStatus == Some(404) then [] else previous
  }

  /** The result of `handleDelete`: the Pod and the page's list. */
  datatype DeleteOutcome = DeleteOutcome(pod: Pod, entries: seq<Entry>)

  /**
   * `handleDelete(item)`: re-read the day, find the Thing with the row's
   * URL, remove it, save, then drop the row from the list. A missing Thing,
   * a read error or a save error changes nothing, and the call never throws.
   * `item` is `None` for the `undefined` of a row index past the data.
   */
  function HandleDelete(pod: Pod, storageUrl: string, date: string, entries: seq<Entry>, item: Option<Entry>): (r: DeleteOutcome)
    ensures r.pod.readFaults == pod.readFaults && r.pod.writeFaults == pod.writeFaults
    ensures r.pod != pod ==>
              && item.Some?
              && Read(pod, DayUrl(storageUrl, date)).Success?
              && FindThing(Read(pod, DayUrl(storageUrl, date)).value.things, item.value.fileUrl).Some?
              && r.pod == pod.(resources := pod.resources[DayUrl(storageUrl, date) :=
                                 RemoveThing(Read(pod, DayUrl(storageUrl, date)).value, item.value.fileUrl)])
              && r.entries == Without(entries, item.value.fileUrl)
    ensures r.pod == pod ==> r.entries == entries
  {
    var url := DayUrl(storageUrl, date);
    if item.None? then DeleteOutcome(pod, entries)
    else match Read(pod, url)
      case Failure(_) => DeleteOutcome(pod, entries)
      case Success(ds) =>
        match FindThing(ds.things, item.value.fileUrl)
        case None => DeleteOutcome(pod, entries)
        case Some(i) =>
          match Save(pod, url, RemoveThing(ds, ds.things[i].url), Some(url))
          case Failure(_) => DeleteOutcome(pod, entries)
          case Success(p) => DeleteOutcome(p, Without(entries, item.value.fileUrl))
  }

  /** `prev.filter(m => m.fileUrl !== url)`. */
  function Without(entries: seq<Entry>, url: Url): (r: seq<Entry>)
    ensures |r| <= |entries|
    ensures forall i :: 0 <= i < |r| ==> r[i].fileUrl != url && r[i] in entries
    ensures forall i :: 0 <= i < |entries| && entries[i].fileUrl != url ==> entries[i] in r
  {
    if |entries| == 0 then []
    else if entries[0].fileUrl == url then Without(entries[1..], url)
    else [entries[0]] + Without(entries[1..], url)
  }

  /** Filtering works row by row: it distributes over concatenation. */
  lemma {:induction false} WithoutAppend(a: seq<Entry>, b: seq<Entry>, url: Url)
    ensures Without(a + b, url) == Without(a, url) + Without(b, url)
    decreases |a|
  {
    if |a| == 0 {
      assert a + b == b;
    } else {
      assert (a + b)[0] == a[0];
      assert (a + b)[1..] == a[1..] + b;
      WithoutAppend(a[1..], b, url);
    }
  }

  /** A single row is kept exactly when its URL is another one. */
  lemma WithoutSingle(e: Entry, url: Url)
    ensures Without([e], url) == if e.fileUrl == url then [] else [e]
  {
    assert [e][1..] == [];
  }

  /**
   * In a day of distinct subjects, a successful delete removes exactly the
   * Thing at the row's URL and leaves the others in order.
   */
  lemma DeleteRemovesExactlyThatThing(pod: Pod, storageUrl: string, date: string, entries: seq<Entry>, item: Entry, i: nat)
    requires DayUrl(storageUrl, date) !in pod.readFaults && DayUrl(storageUrl, date) !in pod.writeFaults
    requires DayUrl(storageUrl, date) in pod.resources
    requires var things := pod.resources[DayUrl(storageUrl, date)].things;
             DistinctUrls(things) && i < |things| && things[i].url == item.fileUrl
    ensures var before := pod.resources[DayUrl(storageUrl, date)];
            var r := HandleDelete(pod, storageUrl, date, entries, Some(item));
            && DayUrl(storageUrl, date) in r.pod.resources
            && r.pod.resources[DayUrl(storageUrl, date)].things == before.things[..i] + before.things[i + 1..]
            && forall k :: 0 <= k < |r.entries| ==> r.entries[k].fileUrl != item.fileUrl
  {
    var things := pod.resources[DayUrl(storageUrl, date)].things;
    var j := FindThing(things, item.fileUrl);
    assert j.Some? && j.value <= i;
    assert j == Some(i);
    RemoveFromDistinct(things, i);
  }
}

=== FILE: model_page.dfy ===
/**
 * The insulin prediction workflow of the model page: selection of the latest
 * measurement in a time slot, the fixed-threshold dose rule, the payload for
 * the external `/predict` service, and the append of a prediction record.
 */
module ModelPage {
  import opened Wrappers
  import opened Js
  import opened Pod
  import Strings

  /** The time-slot options of the selector and the payload field each one fills. */
  const SlotOptions: seq<string> := ["G at Waking", "G at 09:30", "G at 13:00", "G at 15:00", "G at 18:00", "G at 20:00"]
  const SlotFields: seq<string> := [
    "Glucosio al Risveglio (07:00)", "Glucosio alle 09:30", "Glucosio alle 13:00",
    "Glucosio alle 15:00", "Glucosio alle 18:00", "Glucosio alle 20:00"]

  // ---------------------------------------------------------------------
  // findLatestData
  // ---------------------------------------------------------------------

  /** The thing was measured in the selected slot: its `time` string equals the option. */
  predicate InSlot(t: Thing, option: string)
  {
    GetString(t, TimeProp) == Some(option)
  }

  /** The `.value` of the thing's timestamp literal, if it has one. */
  function TimestampOf(t: Thing): (r: Option<string>)
    ensures r.Some? <==> TimestampProp in t.props
  {
    match GetLiteral(t, TimestampProp)
    case Some(l) => Some(l.lexical)
    case None => None
  }

  /**
   * The guard of the scan: the thing is in the slot and either no timestamp
   * is held yet (`latestTimestamp === null`) or its own timestamp is truthy
   * and strictly greater than the one held.
   */
  predicate Replaces(t: Thing, option: string, latestTs: Option<string>)
  {
    && InSlot(t, option)
    && (latestTs.None? || (TimestampOf(t).Some? && TimestampOf(t).value != "" && Strings.Less(latestTs.value, TimestampOf(t).value)))
  }

  /** The single pass of `findLatestData` from the state (`latestThing`, `latestTimestamp`). */
  function Scan(things: seq<Thing>, option: string, latest: Option<Thing>, latestTs: Option<string>): (r: Option<Thing>)
    requires latest.Some? ==> InSlot(latest.value, option)
    requires latest.None? ==> latestTs.None?
    ensures r.Some? ==> InSlot(r.value, option)
    ensures r.Some? ==> r == latest || r.value in things
    ensures r.None? <==> latest.None? && forall i :: 0 <= i < |things| ==> !InSlot(things[i], option)
  {
    if |things| == 0 then latest
    else if Replaces(things[0], option, latestTs) then Scan(things[1..], option, Some(things[0]), TimestampOf(things[0]))
    else Scan(things[1..], option, latest, latestTs)
  }

  /**
   * `findLatestData(things, selectedOption)`: `None` exactly when no thing is
   * in the slot; otherwise a thing of the slot.
   */
  function FindLatestData(things: seq<Thing>, option: string): (r: Option<Thing>)
    ensures r.None? <==> forall i :: 0 <= i < |things| ==> !InSlot(things[i], option)
    ensures r.Some? ==> r.value in things && InSlot(r.value, option)
  {
    Scan(things, option, None, None)
  }

  /** Every thing of the slot carries a timestamp literal. */
  predicate SlotTimestamped(things: seq<Thing>, option: string)
  {
    forall i :: 0 <= i < |things| ==> InSlot(things[i], option) ==> TimestampOf(things[i]).Some?
  }

  /** Index `k` holds a greatest timestamp of the slot among `things[..n]`, and the earliest such. */
  predicate LatestAmong(things: seq<Thing>, option: string, n: nat, k: nat)
    requires n <= |things| && SlotTimestamped(things, option)
  {
    && k < n && InSlot(things[k], option)
    && (forall j :: 0 <= j < n && InSlot(things[j], option) ==> !Strings.Less(TimestampOf(things[k]).value, TimestampOf(things[j]).value))
    && (forall j :: 0 <= j < k && InSlot(things[j], option) ==> Strings.Less(TimestampOf(things[j]).value, TimestampOf(things[k]).value))
  }

  lemma {:induction false} ScanSelectsLatest(things: seq<Thing>, option: string, i: nat, b: Option<nat>)
    requires i <= |things| && SlotTimestamped(things, option)
    requires b.None? ==> forall j :: 0 <= j < i ==> !InSlot(things[j], option)
    requires b.Some? ==> LatestAmong(things, option, i, b.value)
    ensures var r := Scan(things[i..], option, if b.Some? then Some(things[b.value]) else None,
                          if b.Some? then TimestampOf(things[b.value]) else None);
            r.Some? ==> exists k: nat :: LatestAmong(things, option, |things|, k) && r.value == things[k]
    decreases |things| - i
  {
    if i == |things| {
      if b.Some? {
        assert LatestAmong(things, option, |things|, b.value);
      }
    } else {
      var t := things[i];
      var latest := if b.Some? then Some(things[b.value]) else None;
      var latestTs := if b.Some? then TimestampOf(things[b.value]) else None;
      assert things[i..][0] == t && things[i..][1..] == things[i + 1..];
      if Replaces(t, option, latestTs) {
        var ti := TimestampOf(t).value;
        forall j | 0 <= j < i + 1 && InSlot(things[j], option)
          ensures !Strings.Less(ti, TimestampOf(things[j]).value)
          ensures j < i ==> Strings.Less(TimestampOf(things[j]).value, ti)
        {
          var tj := TimestampOf(things[j]).value;
          if j == i {
            Strings.LessIrreflexive(ti);
          } else {
            var tb := TimestampOf(things[b.value]).value;
            Strings.LessTotal(tj, tb);
            if tj != tb {
              Strings.LessTransitive(tj, tb, ti);
            }
            Strings.LessAsymmetric(tj, ti);
          }
        }
        ScanSelectsLatest(things, option, i + 1, Some(i));
      } else {
        if b.Some? && InSlot(t, option) {
          var tb := TimestampOf(things[b.value]).value;
          assert !Strings.Less(tb, TimestampOf(t).value);
        }
        ScanSelectsLatest(things, option, i + 1, b);
      }
    }
  }

  /**
   * When every thing of the slot has a timestamp, the selection is a thing of
   * the slot with a greatest timestamp, and the comparison being strict, the
   * earliest of those.
   */
  lemma SelectsGreatestTimestamp(things: seq<Thing>, option: string)
    requires SlotTimestamped(things, option)
    requires exists i :: 0 <= i < |things| && InSlot(things[i], option)
    ensures exists k: nat :: LatestAmong(things, option, |things|, k) && FindLatestData(things, option) == Some(things[k])
  {
    ScanSelectsLatest(things, option, 0, None);
    assert things[0..] == things;
  }

  /** The scan restarts at the first match whenever it holds no timestamp. */
  lemma {:induction false} ScanForgetsUntimestamped(things: seq<Thing>, option: string, held: Thing)
    requires InSlot(held, option)
    requires exists i :: 0 <= i < |things| && InSlot(things[i], option)
    ensures Scan(things, option, Some(held), None) == Scan(things, option, None, None)
  {
    if !InSlot(things[0], option) {
      ScanForgetsUntimestamped(things[1..], option, held);
    }
  }

  lemma {:induction false} ScanSkipsOutOfSlot(pre: seq<Thing>, post: seq<Thing>, option: string)
    requires forall i :: 0 <= i < |pre| ==> !InSlot(pre[i], option)
    ensures Scan(pre + post, option, None, None) == Scan(post, option, None, None)
  {
    if |pre| > 0 {
      assert (pre + post)[0] == pre[0];
      assert !Replaces(pre[0], option, None);
      assert (pre + post)[1..] == pre[1..] + post;
      assert Scan(pre + post, option, None, None) == Scan(pre[1..] + post, option, None, None);
      ScanSkipsOutOfSlot(pre[1..], post, option);
    } else {
      assert pre + post == post;
    }
  }

  /**
   * A first match without a timestamp leaves `latestTimestamp` null, so the
   * next match replaces it unconditionally: the result is as if that first
   * match were absent.
   */
  lemma FirstUntimestampedMatchIsForgotten(pre: seq<Thing>, first: Thing, post: seq<Thing>, option: string)
    requires forall i :: 0 <= i < |pre| ==> !InSlot(pre[i], option)
    requires InSlot(first, option) && TimestampOf(first).None?
    requires exists i :: 0 <= i < |post| && InSlot(post[i], option)
    ensures FindLatestData(pre + [first] + post, option) == FindLatestData(pre + post, option)
  {
    ScanSkipsOutOfSlot(pre, [first] + post, option);
    assert pre + [first] + post == pre + ([first] + post);
    assert ([first] + post)[0] == first && ([first] + post)[1..] == post;
    ScanForgetsUntimestamped(post, option, first);
    ScanSkipsOutOfSlot(pre, post, option);
  }

  /**
   * Missing fields only raise a warning: a lone thing of the slot is
   * selected whatever its timestamp and glucose value.
   */
  lemma IncompleteThingStillSelected(t: Thing, option: string)
    requires InSlot(t, option)
    ensures FindLatestData([t], option) == Some(t)
  {
  }

  // ---------------------------------------------------------------------
  // The dose rule
  // ---------------------------------------------------------------------

  const BasalAdviceMessage := "Assumere insulina basale"
  const InsulinFactor: real := 0.2

  /** The advice for a glucose value in mg/dL. */
  datatype Advice = TakeBasal | Dose(insulin: Number)

  /**
   * At most 100 mg/dL the advice is basal insulin; above (or for a value that
   * is not a number, which fails `<=`) the dose is the value in mmol/L times 0.2.
   */
  function Advise(glucose: Number): (a: Advice)
    ensures a.TakeBasal? <==> glucose.Num? && glucose.v <= 100.0
    ensures a.Dose? && glucose.Num? ==> a.insulin.Num? && a.insulin.v * 90.0 == glucose.v && a.insulin.v > 10.0 / 9.0
    ensures a.Dose? && glucose.NaN? ==> a.insulin.NaN?
  {
    if AtMost(glucose, 100.0) then TakeBasal
    else Dose(Mul(Div(glucose, 18.0), InsulinFactor))
  }

  // ---------------------------------------------------------------------
  // The /predict payload
  // ---------------------------------------------------------------------

  /** The value sent for slot field `k`: the mmol value for the selected slot, 4 otherwise. */
  function SlotValue(option: string, k: nat, mmol: Number): Json
    requires k < |SlotOptions|
  {
    if option == SlotOptions[k] then ToJson(mmol) else JNum(4.0)
  }

  /** The body posted to `/predict`, in the key order of the object literal. */
  function PredictPayload(option: string, mmol: Number): (p: JsonObject)
    ensures |p| == 9
    ensures p[0] == ("ID", JNum(0.0)) && p[1] == ("settimana", JNum(1.0)) && p[2] == ("giornoSettimana", JNum(1.0))
    ensures forall k :: 0 <= k < 6 ==> p[3 + k].0 == SlotFields[k]
    ensures forall k :: 0 <= k < 6 ==> (option == SlotOptions[k] ==> p[3 + k].1 == ToJson(mmol))
    ensures forall k :: 0 <= k < 6 ==> (option != SlotOptions[k] ==> p[3 + k].1 == JNum(4.0))
  {
    [("ID", JNum(0.0)), ("settimana", JNum(1.0)), ("giornoSettimana", JNum(1.0))]
      + seq(6, k requires 0 <= k < 6 => (SlotFields[k], SlotValue(option, k, mmol)))
  }

  /** The slot options are distinct, so a selected option fills at most one field. */
  lemma AtMostOneSlotCarriesTheMeasurement(option: string, mmol: Number, k: nat, l: nat)
    requires k < 6 && l < 6 && k != l
    requires option == SlotOptions[k]
    ensures PredictPayload(option, mmol)[3 + l].1 == JNum(4.0)
  {
  }

  // ---------------------------------------------------------------------
  // handlePredict
  // ---------------------------------------------------------------------

  /** The page state `handlePredict` writes. */
  datatype PageState = PageState(glucoseValue: Option<Number>, predictedInsulin: Option<Number>, calculatedInsulin: Option<Number>, adviceMessage: string)

  datatype PredictToast = NoToast | BasalAdvice | PredictionSaved | SaveFailed | NoMeasurement | FetchFailed

  /** What one press of the predict button leaves behind. */
  datatype PredictOutcome = PredictOutcome(pod: Pod, state: PageState, toast: PredictToast, posted: Option<JsonObject>)

  function MeasurementsUrl(storageRoot: Url, date: string): Url
  {
    storageRoot + "measuraments/" + date + "/"
  }

  function PredictionsUrl(storageRoot: Url, date: string): Url
  {
    storageRoot + "prediction/" + date + "/"
  }

  /** The prediction record: the locally calculated dose, the glucose value and the slot, as strings. */
  function PredictionThing(predictionsUrl: Url, clock: string, insulin: Number, glucose: Number, time: string, show: Number -> string): Thing
  {
    Thing(ThingUrl(predictionsUrl, "insulin-prediction-" + clock), map[
      PredictedInsulinProp := Literal(show(insulin), XsdString),
      GlucoseProp := Literal(show(glucose), XsdString),
      TimeProp := Literal(time, XsdString)])
  }

  /** The record carries the shown dose, the shown glucose value and the slot, each as a plain string. */
  lemma PredictionThingFields(predictionsUrl: Url, clock: string, insulin: Number, glucose: Number, time: string, show: Number -> string)
    ensures var t := PredictionThing(predictionsUrl, clock, insulin, glucose, time, show);
            && GetString(t, PredictedInsulinProp) == Some(show(insulin))
            && GetString(t, GlucoseProp) == Some(show(glucose))
            && GetString(t, TimeProp) == Some(time)
  {
    var t := PredictionThing(predictionsUrl, clock, insulin, glucose, time, show);
    assert t.props[PredictedInsulinProp] == Literal(show(insulin), XsdString);
    assert t.props[GlucoseProp] == Literal(show(glucose), XsdString);
    assert t.props[TimeProp] == Literal(time, XsdString);
  }

  /**
   * The day's prediction container and where its dataset came from: the
   * stored container when it reads, otherwise, on a 404, a newly created
   * one. `keepCreated` says whether the dataset `createContainerAt` returns
   * is kept (bound to the URL) or dropped for an unbound
   * `createSolidDataset()`. A read error other than 404, or a failed
   * creation, ends in the outer catch.
   */
  function LoadPredictions(pod: Pod, predictionsUrl: Url, keepCreated: bool): (r: Result<(Pod, Dataset, Option<Url>), PodError>)
    ensures Read(pod, predictionsUrl).Success? ==> r == Success((pod, Read(pod, predictionsUrl).value, Some(predictionsUrl)))
    ensures Read(pod, predictionsUrl).Failure? && Read(pod, predictionsUrl).error.statusCode != Some(404) ==> r.Failure?
    ensures Read(pod, predictionsUrl).Failure? && Read(pod, predictionsUrl).error.statusCode == Some(404)
            && predictionsUrl !in pod.writeFaults && predictionsUrl !in pod.resources ==>
              r == Success((pod.(resources := pod.resources[predictionsUrl := EmptyDataset]), EmptyDataset, if keepCreated then Some(predictionsUrl) else None))
  {
    match Read(pod, predictionsUrl)
    case Success(ds) => Success((pod, ds, Some(predictionsUrl)))
    case Failure(e) =>
      if e.statusCode == Some(404) then
        match CreateContainer(pod, predictionsUrl)
        case Success(p) => Success((p, EmptyDataset, if keepCreated then Some(predictionsUrl) else None))
        case Failure(e2) => Failure(e2)
      else Failure(e)
  }

  /** Sets the record into the loaded container and saves it, reporting the toast shown. */
  function SaveRecord(loaded: Result<(Pod, Dataset, Option<Url>), PodError>, pod: Pod, predictionsUrl: Url, record: Thing): (Pod, PredictToast)
  {
    match loaded
    case Failure(_) => (pod, FetchFailed)
    case Success((p, ds, fetchedFrom)) =>
      match Save(p, predictionsUrl, SetThing(ds, record), fetchedFrom)
      case Success(p') => (p', PredictionSaved)
      case Failure(_) => (p, SaveFailed)
  }

  /**
   * The dose branch after the POST, as written: a missing container is
   * created, but the record is set into a fresh unbound dataset, whose
   * create-only save then meets the container just created.
   */
  function SavePredictionAsWritten(pod: Pod, predictionsUrl: Url, record: Thing): (r: (Pod, PredictToast))
    ensures Read(pod, predictionsUrl).Success? ==> r == SavePrediction(pod, predictionsUrl, record)
    ensures r.1 == FetchFailed ==> r.0 == pod
  {
    SaveRecord(LoadPredictions(pod, predictionsUrl, false), pod, predictionsUrl, record)
  }

  /**
   * The dose branch after the POST, as intended: the dataset of the created
   * container is kept, so the record is saved as its update.
   */
  function SavePrediction(pod: Pod, predictionsUrl: Url, record: Thing): (r: (Pod, PredictToast))
    ensures Read(pod, predictionsUrl).Success? && predictionsUrl !in pod.writeFaults ==>
              r == (pod.(resources := pod.resources[predictionsUrl := SetThing(Read(pod, predictionsUrl).value, record)]), PredictionSaved)
    ensures Read(pod, predictionsUrl).Success? && predictionsUrl in pod.writeFaults ==> r == (pod, SaveFailed)
    ensures Read(pod, predictionsUrl).Failure? && Read(pod, predictionsUrl).error.statusCode == Some(404)
            && predictionsUrl !in pod.writeFaults && predictionsUrl !in pod.resources ==>
              r == (pod.(resources := pod.resources[predictionsUrl := SetThing(EmptyDataset, record)]), PredictionSaved)
    ensures Read(pod, predictionsUrl).Failure? && Read(pod, predictionsUrl).error.statusCode != Some(404) ==> r == (pod, FetchFailed)
    ensures r.1 == FetchFailed ==> r.0 == pod
  {
    var created := pod.(resources := pod.resources[predictionsUrl := EmptyDataset]);
    assert created.(resources := created.resources[predictionsUrl := SetThing(EmptyDataset, record)])
           == pod.(resources := pod.resources[predictionsUrl := SetThing(EmptyDataset, record)]);
    SaveRecord(LoadPredictions(pod, predictionsUrl, true), pod, predictionsUrl, record)
  }

  /**
   * The first prediction of a day is lost as written: the container is
   * created empty, the create-only save of the record fails with 412 and the
   * error toast is shown, where the intended code saves the record.
   */
  lemma FirstPredictionAsWrittenFails(pod: Pod, predictionsUrl: Url, record: Thing)
    requires predictionsUrl !in pod.readFaults && predictionsUrl !in pod.writeFaults && predictionsUrl !in pod.resources
    ensures SavePredictionAsWritten(pod, predictionsUrl, record) == (pod.(resources := pod.resources[predictionsUrl := EmptyDataset]), SaveFailed)
    ensures SavePrediction(pod, predictionsUrl, record) == (pod.(resources := pod.resources[predictionsUrl := Dataset([record], [])]), PredictionSaved)
  {
    var created := pod.(resources := pod.resources[predictionsUrl := EmptyDataset]);
    assert CreateContainer(pod, predictionsUrl) == Success(created);
    assert Save(created, predictionsUrl, SetThing(EmptyDataset, record), None) == Failure(PreconditionFailed(predictionsUrl));
    assert SetThing(EmptyDataset, record) == Dataset([record], []);
  }

  /**
   * `handlePredict`. The reply of `/predict` is only logged, so it is not an
   * input here: the saved record and the page state cannot depend on it.
   * `clock` is the `HH-mm-ss` suffix of the record name.
   */
  function HandlePredict(pod: Pod, state: PageState, storageRoot: Url, date: string, clock: string, option: string,
                         parseFloat: string -> Number, show: Number -> string): (r: PredictOutcome)
    ensures r.state.predictedInsulin.None? || r.state.predictedInsulin == state.predictedInsulin
    ensures r.posted.None? ==> r.pod == pod
  {
    match Read(pod, MeasurementsUrl(storageRoot, date))
    case Failure(_) => PredictOutcome(pod, state, FetchFailed, None)
    case Success(ds) =>
      match FindLatestData(ds.things, option)
      case None => PredictOutcome(pod, state.(predictedInsulin := None, calculatedInsulin := None, adviceMessage := ""), NoMeasurement, None)
      case Some(latest) =>
        match GetLiteral(latest, GlucoseProp)
        case None => PredictOutcome(pod, state.(predictedInsulin := None, calculatedInsulin := None, adviceMessage := ""), NoToast, None)
        case Some(lit) =>
          var glucose := parseFloat(lit.lexical);
          match Advise(glucose)
          case TakeBasal =>
            PredictOutcome(pod, PageState(Some(glucose), None, None, BasalAdviceMessage), BasalAdvice, None)
          case Dose(insulin) =>
            var time := GetString(latest, TimeProp).value;
            var payload := PredictPayload(option, Div(glucose, 18.0));
            var record := PredictionThing(PredictionsUrl(storageRoot, date), clock, insulin, glucose, time, show);
            var (pod', toast) := SavePrediction(pod, PredictionsUrl(storageRoot, date), record);
            PredictOutcome(pod', state.(glucoseValue := Some(glucose), calculatedInsulin := Some(insulin), adviceMessage := ""), toast, Some(payload))
  }

  /** At most 100 mg/dL: basal advice, both insulin values null, no POST and nothing saved. */
  lemma BasalAdviceWritesNothing(pod: Pod, state: PageState, storageRoot: Url, date: string, clock: string, option: string,
                                 parseFloat: string -> Number, show: Number -> string, ds: Dataset, latest: Thing, lit: Literal)
    requires Read(pod, MeasurementsUrl(storageRoot, date)) == Success(ds)
    requires FindLatestData(ds.things, option) == Some(latest)
    requires GetLiteral(latest, GlucoseProp) == Some(lit)
    requires AtMost(parseFloat(lit.lexical), 100.0)
    ensures var r := HandlePredict(pod, state, storageRoot, date, clock, option, parseFloat, show);
            && r.pod == pod && r.posted.None? && r.toast == BasalAdvice
            && r.state == PageState(Some(parseFloat(lit.lexical)), None, None, BasalAdviceMessage)
  {
  }

  /**
   * Above 100 mg/dL the payload is posted and, the prediction container being
   * readable and writable, the record of the locally calculated dose is
   * appended to it (there is no reply to wait for: a failed POST changes nothing).
   */
  lemma DoseRecordIsSaved(pod: Pod, state: PageState, storageRoot: Url, date: string, clock: string, option: string,
                          parseFloat: string -> Number, show: Number -> string, ds: Dataset, latest: Thing, lit: Literal)
    requires Read(pod, MeasurementsUrl(storageRoot, date)) == Success(ds)
    requires FindLatestData(ds.things, option) == Some(latest)
    requires GetLiteral(latest, GlucoseProp) == Some(lit)
    requires !AtMost(parseFloat(lit.lexical), 100.0)
    requires var u := PredictionsUrl(storageRoot, date); u !in pod.readFaults && u !in pod.writeFaults && u in pod.resources
    ensures var glucose := parseFloat(lit.lexical);
            var insulin := Mul(Div(glucose, 18.0), InsulinFactor);
            var u := PredictionsUrl(storageRoot, date);
            var record := PredictionThing(u, clock, insulin, glucose, option, show);
            var r := HandlePredict(pod, state, storageRoot, date, clock, option, parseFloat, show);
            && r.toast == PredictionSaved
            && r.posted == Some(PredictPayload(option, Div(glucose, 18.0)))
            && r.pod == pod.(resources := pod.resources[u := SetThing(pod.resources[u], record)])
            && r.state.calculatedInsulin == Some(insulin)
            && GetString(record, PredictedInsulinProp) == Some(show(insulin))
            && GetString(record, GlucoseProp) == Some(show(glucose))
            && GetString(record, TimeProp) == Some(option)
  {
    var glucose := parseFloat(lit.lexical);
    var insulin := Mul(Div(glucose, 18.0), InsulinFactor);
    var u := PredictionsUrl(storageRoot, date);
    var record := PredictionThing(u, clock, insulin, glucose, option, show);
    PredictionThingFields(u, clock, insulin, glucose, option, show);
    DoseBranch(pod, state, storageRoot, date, clock, option, parseFloat, show, ds, latest, lit);
    var saved := pod.(resources := pod.resources[u := SetThing(pod.resources[u], record)]);
    assert Read(pod, u) == Success(pod.resources[u]);
  }

  /** Past the basal threshold, the outcome is the save of the record stamped with the selected slot. */
  lemma DoseBranch(pod: Pod, state: PageState, storageRoot: Url, date: string, clock: string, option: string,
                   parseFloat: string -> Number, show: Number -> string, ds: Dataset, latest: Thing, lit: Literal)
    requires Read(pod, MeasurementsUrl(storageRoot, date)) == Success(ds)
    requires FindLatestData(ds.things, option) == Some(latest)
    requires GetLiteral(latest, GlucoseProp) == Some(lit)
    requires !AtMost(parseFloat(lit.lexical), 100.0)
    ensures var glucose := parseFloat(lit.lexical);
            var insulin := Mul(Div(glucose, 18.0), InsulinFactor);
            var u := PredictionsUrl(storageRoot, date);
            var saved := SavePrediction(pod, u, PredictionThing(u, clock, insulin, glucose, option, show));
            HandlePredict(pod, state, storageRoot, date, clock, option, parseFloat, show)
              == PredictOutcome(saved.0, state.(glucoseValue := Some(glucose), calculatedInsulin := Some(insulin), adviceMessage := ""),
                                saved.1, Some(PredictPayload(option, Div(glucose, 18.0))))
  {
    assert GetString(latest, TimeProp) == Some(option);
  }

  /** A missing prediction container is created first and then holds the one record. */
  lemma FirstPredictionOfTheDay(pod: Pod, state: PageState, storageRoot: Url, date: string, clock: string, option: string,
                                parseFloat: string -> Number, show: Number -> string, ds: Dataset, latest: Thing, lit: Literal)
    requires Read(pod, MeasurementsUrl(storageRoot, date)) == Success(ds)
    requires FindLatestData(ds.things, option) == Some(latest)
    requires GetLiteral(latest, GlucoseProp) == Some(lit)
    requires !AtMost(parseFloat(lit.lexical), 100.0)
    requires var u := PredictionsUrl(storageRoot, date); u !in pod.readFaults && u !in pod.writeFaults && u !in pod.resources
    ensures var glucose := parseFloat(lit.lexical);
            var u := PredictionsUrl(storageRoot, date);
            var record := PredictionThing(u, clock, Mul(Div(glucose, 18.0), InsulinFactor), glucose, option, show);
            var r := HandlePredict(pod, state, storageRoot, date, clock, option, parseFloat, show);
            r.toast == PredictionSaved && r.pod == pod.(resources := pod.resources[u := Dataset([record], [])])
  {
    DoseBranch(pod, state, storageRoot, date, clock, option, parseFloat, show, ds, latest, lit);
    var glucose := parseFloat(lit.lexical);
    var u := PredictionsUrl(storageRoot, date);
    var record := PredictionThing(u, clock, Mul(Div(glucose, 18.0), InsulinFactor), glucose, option, show);
    assert SetThing(EmptyDataset, record) == Dataset([record], []);
  }
}

=== FILE: pod.dfy ===
/**
 * An abstract Solid Pod as the application sees it through its client
 * library: resources addressed by URL, each a dataset of Things plus the
 * URLs of the resources a container lists, and reads and writes that can
 * fail with an HTTP-style error. Faults are part of the state, so every
 * operation is a deterministic function of the Pod.
 */
module Pod {
  import opened Wrappers
  import opened Js

  type Url = string

  /** The predicates the application reads and writes. */
  const TimeProp := "http://schema.org/time"
  const TimestampProp := "http://schema.org/timestamp"
  const GlucoseProp := "http://schema.org/glucoseValue"
  const PredictedInsulinProp := "http://schema.org/predictedInsulin"
  const DateTimeProp := "http://www.w3.org/2001/XMLSchema#dateTime"

  /** An RDF literal: its lexical form and its datatype. */
  datatype LiteralType = XsdString | XsdDecimal
  datatype Literal = Literal(lexical: string, kind: LiteralType)

  /** A schemaless record: a URL and at most one literal per predicate. */
  datatype Thing = Thing(url: Url, props: map<string, Literal>)

  /** The content of one resource: its Things and, for a container, the URLs it contains. */
  datatype Dataset = Dataset(things: seq<Thing>, contained: seq<Url>)

  /** `createSolidDataset()`. */
  const EmptyDataset := Dataset([], [])

  /** The URL a Thing created with `createThing({ name })` receives once saved at `datasetUrl`. */
  function ThingUrl(datasetUrl: Url, name: string): Url
  {
    datasetUrl + "#" + name
  }

  /** `getLiteral(thing, p)`. */
  function GetLiteral(t: Thing, p: string): (r: Option<Literal>)
    ensures r.Some? <==> p in t.props
  {
    if p in t.props then Some(t.props[p]) else None
  }

  /** `getStringNoLocale(thing, p)`: only a plain string literal is returned. */
  function GetString(t: Thing, p: string): (r: Option<string>)
    ensures r.Some? <==> p in t.props && t.props[p].kind == XsdString
    ensures r.Some? ==> r.value == t.props[p].lexical
  {
    if p in t.props && t.props[p].kind == XsdString then Some(t.props[p].lexical) else None
  }

  /**
   * `getDecimal(thing, p)`: only a decimal literal is returned, and one whose
   * lexical form does not parse reads as `null`.
   */
  function GetDecimal(t: Thing, p: string, parseDecimal: string -> Number): (r: Option<real>)
    ensures r.Some? <==> p in t.props && t.props[p].kind == XsdDecimal && parseDecimal(t.props[p].lexical).Num?
    ensures r.Some? ==> parseDecimal(t.props[p].lexical) == Num(r.value)
  {
    if p in t.props && t.props[p].kind == XsdDecimal then
      match parseDecimal(t.props[p].lexical)
      case Num(v) => Some(v)
      case NaN => None
    else None
  }

  /**
   * The client library's error: `statusCode` and `response.status` are read
   * separately by different callers, and `message` names the URL and status.
   */
  datatype PodError = PodError(statusCode: Option<int>, responseStatus: Option<int>, message: string)

  function NotFound(url: Url): PodError
  {
    PodError(Some(404), Some(404), "Fetching the Resource at [" + url + "] failed: [404] [Not Found].")
  }

  function AlreadyExists(url: Url): PodError
  {
    PodError(Some(412), Some(412), "Creating the empty Container at [" + url + "] failed: [412] [Precondition Failed].")
  }

  /**
   * The Pod: the stored resources, and the errors that reading or writing a
   * given URL raises (an authorization failure, a network outage, ...).
   */
  datatype Pod = Pod(resources: map<Url, Dataset>, readFaults: map<Url, PodError>, writeFaults: map<Url, PodError>)

  /** `getSolidDataset(url)`. */
  function Read(pod: Pod, url: Url): (r: Result<Dataset, PodError>)
    ensures url in pod.readFaults ==> r == Failure(pod.readFaults[url])
    ensures url !in pod.readFaults && url !in pod.resources ==> r == Failure(NotFound(url))
    ensures r.Success? <==> url !in pod.readFaults && url in pod.resources
    ensures r.Success? ==> r.value == pod.resources[url]
  {
    if url in pod.readFaults then Failure(pod.readFaults[url])
    else if url in pod.resources then Success(pod.resources[url])
    else Failure(NotFound(url))
  }

  /** The error a create-only write raises when the resource already exists. */
  function PreconditionFailed(url: Url): PodError
  {
    PodError(Some(412), Some(412), "Storing the Resource at [" + url + "] failed: [412] [Precondition Failed].")
  }

  /**
   * `saveSolidDatasetAt(url, ds)`. `fetchedFrom` is where `ds` was obtained:
   * `Some(url)` for a dataset fetched from (or already saved to) `url`,
   * `None` for one built with `createSolidDataset()`. A dataset fetched from
   * `url` is written as an update; any other is written create-only, which
   * fails with 412 when a resource already exists at `url`.
   */
  function Save(pod: Pod, url: Url, ds: Dataset, fetchedFrom: Option<Url>): (r: Result<Pod, PodError>)
    ensures url in pod.writeFaults ==> r == Failure(pod.writeFaults[url])
    ensures url !in pod.writeFaults && fetchedFrom != Some(url) && url in pod.resources ==> r == Failure(PreconditionFailed(url))
    ensures r.Success? <==> url !in pod.writeFaults && (fetchedFrom == Some(url) || url !in pod.resources)
    ensures r.Success? ==> r.value == pod.(resources := pod.resources[url := ds])
  {
    if url in pod.writeFaults then Failure(pod.writeFaults[url])
    else if fetchedFrom != Some(url) && url in pod.resources then Failure(PreconditionFailed(url))
    else Success(pod.(resources := pod.resources[url := ds]))
  }

  /** `createContainerAt(url)`: refuses to overwrite an existing resource. */
  function CreateContainer(pod: Pod, url: Url): (r: Result<Pod, PodError>)
    ensures r.Success? <==> url !in pod.writeFaults && url !in pod.resources
    ensures r.Success? ==> r.value == pod.(resources := pod.resources[url := EmptyDataset])
  {
    if url in pod.writeFaults then Failure(pod.writeFaults[url])
    else if url in pod.resources then Failure(AlreadyExists(url))
    else Success(pod.(resources := pod.resources[url := EmptyDataset]))
  }

  /** The Things whose URL differs from `url`, in their order. */
  function WithoutUrl(things: seq<Thing>, url: Url): (r: seq<Thing>)
    ensures |r| <= |things|
    ensures forall i :: 0 <= i < |r| ==> r[i].url != url && r[i] in things
    ensures forall t :: t in things && t.url != url ==> t in r
  {
    if |things| == 0 then []
    else if things[0].url == url then WithoutUrl(things[1..], url)
    else [things[0]] + WithoutUrl(things[1..], url)
  }

  /** Filtering works Thing by Thing: it distributes over concatenation. */
  lemma {:induction false} WithoutUrlAppend(a: seq<Thing>, b: seq<Thing>, url: Url)
    ensures WithoutUrl(a + b, url) == WithoutUrl(a, url) + WithoutUrl(b, url)
    decreases |a|
  {
    if |a| == 0 {
      assert a + b == b;
    } else {
      assert (a + b)[0] == a[0];
      assert (a + b)[1..] == a[1..] + b;
      WithoutUrlAppend(a[1..], b, url);
    }
  }

  /** A single Thing is kept exactly when its URL is another one. */
  lemma WithoutUrlSingle(t: Thing, url: Url)
    ensures WithoutUrl([t], url) == if t.url == url then [] else [t]
  {
    assert [t][1..] == [];
  }

  lemma {:induction false} WithoutAbsentUrl(things: seq<Thing>, url: Url)
    requires forall i :: 0 <= i < |things| ==> things[i].url != url
    ensures WithoutUrl(things, url) == things
  {
    if |things| > 0 {
      WithoutAbsentUrl(things[1..], url);
      assert things == [things[0]] + things[1..];
    }
  }

  /** `setThing(ds, t)`: `t` replaces any Thing with its URL and comes last. */
  function SetThing(ds: Dataset, t: Thing): (r: Dataset)
    ensures r.contained == ds.contained
    ensures |r.things| > 0 && r.things[|r.things| - 1] == t
  {
    Dataset(WithoutUrl(ds.things, t.url) + [t], ds.contained)
  }

  /** `removeThing(ds, url)`: every Thing with that URL is dropped. */
  function RemoveThing(ds: Dataset, url: Url): (r: Dataset)
    ensures r.contained == ds.contained
    ensures forall i :: 0 <= i < |r.things| ==> r.things[i].url != url
  {
    Dataset(WithoutUrl(ds.things, url), ds.contained)
  }

  /** `things.find(t => t.url === url)`. */
  function FindThing(things: seq<Thing>, url: Url): (r: Option<nat>)
    ensures r.None? <==> forall i :: 0 <= i < |things| ==> things[i].url != url
    ensures r.Some? ==> r.value < |things| && things[r.value].url == url
    ensures r.Some? ==> forall i :: 0 <= i < r.value ==> things[i].url != url
  {
    if |things| == 0 then None
    else if things[0].url == url then Some(0)
    else match FindThing(things[1..], url)
      case None => None
      case Some(i) => Some(i + 1)
  }

  /** A real dataset holds each subject once. */
  predicate DistinctUrls(things: seq<Thing>)
  {
    forall i, j :: 0 <= i < j < |things| ==> things[i].url != things[j].url
  }

  /** Setting a Thing whose URL is new appends it and changes nothing else. */
  lemma SetFreshThing(ds: Dataset, t: Thing)
    requires forall i :: 0 <= i < |ds.things| ==> ds.things[i].url != t.url
    ensures SetThing(ds, t) == Dataset(ds.things + [t], ds.contained)
  {
    WithoutAbsentUrl(ds.things, t.url);
  }

  /** In a dataset of distinct subjects, removing by URL drops exactly the Thing found. */
  lemma {:induction false} RemoveFromDistinct(things: seq<Thing>, i: nat)
    requires DistinctUrls(things) && i < |things|
    ensures WithoutUrl(things, things[i].url) == things[..i] + things[i + 1..]
  {
    var u := things[i].url;
    var tail := things[1..];
    if i == 0 {
      assert forall k :: 0 <= k < |tail| ==> tail[k].url != u by {
        forall k | 0 <= k < |tail| ensures tail[k].url != u {
          assert tail[k] == things[k + 1];
        }
      }
      WithoutAbsentUrl(tail, u);
    } else {
      TailDistinct(things);
      assert tail[i - 1] == things[i];
      RemoveFromDistinct(tail, i - 1);
      assert WithoutUrl(things, u) == [things[0]] + WithoutUrl(tail, u);
      Splice(things, i);
    }
  }

  lemma TailDistinct(things: seq<Thing>)
    requires DistinctUrls(things) && |things| > 0
    ensures DistinctUrls(things[1..])
  {
    var tail := things[1..];
    forall a, b | 0 <= a < b < |tail| ensures tail[a].url != tail[b].url {
      assert tail[a] == things[a + 1] && tail[b] == things[b + 1];
    }
  }

  lemma Splice<T>(s: seq<T>, i: nat)
    requires 0 < i < |s|
    ensures [s[0]] + (s[1..][..i - 1] + s[1..][i..]) == s[..i] + s[i + 1..]
  {
    assert s[1..][..i - 1] == s[1..i];
    assert s[1..][i..] == s[i + 1..];
    assert [s[0]] + s[1..i] == s[..i];
  }
}

=== FILE: predict_server.dfy ===
/**
 * The `/predict` endpoint of the prediction server: the nine-entry feature
 * vector read from the request body, the width check against the scaler, and
 * the choice of the first target column of the first prediction row. The
 * scaler and the model are uninterpreted: `infer` stands for
 * `model.predict(scaler.transform(...))`, `None` when either raises.
 */
module PredictServer {
  import opened Wrappers
  import opened Js
  import Seqs
  import ModelPage

  /** The keys read from the body, in feature order. */
  const FeatureKeys: seq<string> := [
    "ID", "settimana", "giornoSettimana",
    "Glucosio al Risveglio (07:00)", "Glucosio alle 09:30", "Glucosio alle 13:00",
    "Glucosio alle 15:00", "Glucosio alle 18:00", "Glucosio alle 20:00"]

  /** The model's output columns. */
  const TargetLabels: seq<string> := [
    "Insulina al Risveglio (07:00)", "Insulina alle 09:30", "Insulina alle 13:00",
    "Insulina alle 15:00", "Insulina alle 18:00", "Insulina alle 23:00"]

  const ReportedTarget := "Insulina al Risveglio (07:00)"

  /** `data.get(key, default)` on the dict Python's `json` builds: the last occurrence of a key wins. */
  function Get(body: JsonObject, key: string, default: Json): (r: Json)
    ensures (forall i :: 0 <= i < |body| ==> body[i].0 != key) ==> r == default
  {
    if |body| == 0 then default
    else if body[|body| - 1].0 == key then body[|body| - 1].1
    else Get(body[..|body| - 1], key, default)
  }

  /** A key present in the body reads as the value of its last occurrence. */
  lemma {:induction false} GetLastOccurrence(body: JsonObject, key: string, default: Json, i: nat)
    requires i < |body| && body[i].0 == key
    requires forall j :: i < j < |body| ==> body[j].0 != key
    ensures Get(body, key, default) == body[i].1
    decreases |body|
  {
    if i < |body| - 1 {
      GetLastOccurrence(body[..|body| - 1], key, default, i);
    }
  }

  /** The feature vector: one entry per key, a missing key reading as 0. */
  function FeatureVector(body: JsonObject): (f: seq<Json>)
    ensures |f| == 9
    ensures forall k :: 0 <= k < 9 ==> f[k] == Get(body, FeatureKeys[k], JNum(0.0))
  {
    seq(9, k requires 0 <= k < 9 => Get(body, FeatureKeys[k], JNum(0.0)))
  }

  datatype PredictResponse = Prediction(value: real) | ServerError

  function StatusOf(r: PredictResponse): int
  {
    if r.Prediction? then 200 else 500
  }

  /**
   * `predict()`. `body` is `None` when the request carries no JSON object;
   * `scalerWidth` is `len(scaler.feature_names_in_)`. Every exception becomes
   * a 500 with an error body.
   */
  function Predict(body: Option<JsonObject>, scalerWidth: nat, infer: seq<Json> -> Option<seq<seq<real>>>): (r: PredictResponse)
    ensures body.None? ==> r == ServerError
    ensures scalerWidth != 9 ==> r == ServerError
    ensures r.Prediction? ==>
              && infer(FeatureVector(body.value)).Some?
              && var rows := infer(FeatureVector(body.value)).value;
                 |rows| > 0 && |rows[0]| > 0 && r.value == rows[0][0]
    ensures body.Some? && scalerWidth == 9 && infer(FeatureVector(body.value)).Some? ==>
              var rows := infer(FeatureVector(body.value)).value;
              r == if |rows| > 0 && |rows[0]| > 0 then Prediction(rows[0][0]) else ServerError
  {
    match body
    case None => ServerError
    case Some(b) =>
      var features := FeatureVector(b);
      if |features| != scalerWidth then ServerError
      else match infer(features)
        case None => ServerError
        case Some(rows) =>
          var targetIndex := Seqs.FirstIndex(TargetLabels, ReportedTarget);
          if |rows| == 0 || targetIndex >= |rows[0]| then ServerError
          else Prediction(rows[0][targetIndex])
  }

  /** The reported target is column 0 of the model's output. */
  lemma ReportedTargetIsFirstColumn()
    ensures Seqs.FirstIndex(TargetLabels, ReportedTarget) == 0
  {
  }

  /**
   * The payload of the model page reaches this server intact: every feature
   * key is present, so no default of 0 is used, and the vector is
   * `[0, 1, 1]` followed by the six slot values in field order.
   */
  lemma PayloadFillsFeatureVector(option: string, mmol: Number)
    ensures var f := FeatureVector(ModelPage.PredictPayload(option, mmol));
            && f[..3] == [JNum(0.0), JNum(1.0), JNum(1.0)]
            && forall k :: 0 <= k < 6 ==> f[3 + k] == (if option == ModelPage.SlotOptions[k] then ToJson(mmol) else JNum(4.0))
  {
    var p := ModelPage.PredictPayload(option, mmol);
    assert forall k :: 0 <= k < 6 ==> FeatureKeys[3 + k] == ModelPage.SlotFields[k];
    forall k | 0 <= k < 9
      ensures Get(p, FeatureKeys[k], JNum(0.0)) == p[k].1
    {
      assert p[k].0 == FeatureKeys[k];
      assert forall j :: k < j < 9 ==> p[j].0 != FeatureKeys[k];
      GetLastOccurrence(p, FeatureKeys[k], JNum(0.0), k);
    }
  }
}

=== FILE: seqs.dfy ===
/**
 * Sequence helpers shared by the model: distinctness, the index of a first
 * occurrence, and `Array.from(new Set(xs))` — deduplication that keeps the
 * order of first occurrences.
 */
module Seqs {

  predicate Distinct<T(==)>(s: seq<T>)
  {
    forall i, j :: 0 <= i < j < |s| ==> s[i] != s[j]
  }

  /** The position of the first occurrence of `x` in `s`. */
  function FirstIndex<T(==)>(s: seq<T>, x: T): (i: nat)
    requires x in s
    ensures i < |s| && s[i] == x
    ensures forall j :: 0 <= j < i ==> s[j] != x
  {
    if s[0] == x then 0 else 1 + FirstIndex(s[1..], x)
  }

  /** Appending after `x` does not move its first occurrence. */
  lemma {:induction false} FirstIndexAppend<T>(s: seq<T>, t: seq<T>, x: T)
    requires x in s
    ensures FirstIndex(s + t, x) == FirstIndex(s, x)
  {
    var i := FirstIndex(s, x);
    var k := FirstIndex(s + t, x);
    assert (s + t)[i] == x;
    assert k <= i;
    assert s[k] == (s + t)[k];
  }

  /**
   * `Array.from(new Set(s))`: each element once, in the order in which it
   * first occurs in `s`.
   */
  function Dedup<T(==)>(s: seq<T>): (r: seq<T>)
    ensures Distinct(r)
    ensures forall i :: 0 <= i < |r| ==> r[i] in s
    ensures forall i :: 0 <= i < |s| ==> s[i] in r
    ensures |r| <= |s|
  {
    if |s| == 0 then []
    else
      var r := Dedup(s[..|s| - 1]);
      if s[|s| - 1] in r then r else r + [s[|s| - 1]]
  }

  /** The elements of `Dedup(s)` appear in the order of their first occurrences in `s`. */
  lemma {:induction false} DedupKeepsFirstOccurrenceOrder<T>(s: seq<T>)
    ensures forall i, j :: 0 <= i < j < |Dedup(s)| ==> FirstIndex(s, Dedup(s)[i]) < FirstIndex(s, Dedup(s)[j])
    decreases |s|
  {
    if |s| > 0 {
      var p := s[..|s| - 1];
      var x := s[|s| - 1];
      assert s == p + [x];
      DedupKeepsFirstOccurrenceOrder(p);
      var r := Dedup(p);
      forall y | y in p
        ensures FirstIndex(s, y) == FirstIndex(p, y)
      {
        FirstIndexAppend(p, [x], y);
      }
      if x !in r {
        assert x !in p;
        assert FirstIndex(s, x) == |p|;
        assert Dedup(s) == r + [x];
      } else {
        assert Dedup(s) == r;
      }
    }
  }

  /** Appending elements that were already seen leaves the deduplication unchanged. */
  lemma {:induction false} DedupAppendSeen<T>(s: seq<T>, t: seq<T>)
    requires forall x :: x in t ==> x in s
    ensures Dedup(s + t) == Dedup(s)
    decreases |t|
  {
    if |t| > 0 {
      var t' := t[..|t| - 1];
      assert (s + t)[..|s + t| - 1] == s + t';
      DedupAppendSeen(s, t');
    } else {
      assert s + t == s;
    }
  }

  /** A sequence without repetitions is its own deduplication. */
  lemma {:induction false} DedupOfDistinct<T>(s: seq<T>)
    requires Distinct(s)
    ensures Dedup(s) == s
    decreases |s|
  {
    if |s| > 0 {
      var p := s[..|s| - 1];
      DedupOfDistinct(p);
      assert s[|s| - 1] !in p;
      assert p + [s[|s| - 1]] == s;
    }
  }
}

=== FILE: strings.dfy ===
/**
 * The JavaScript string operations the application uses: relational
 * comparison of strings, `includes`, `replace` with a string pattern,
 * `trim` and `toLowerCase`.
 */
module Strings {
  import opened Wrappers

  /**
   * JavaScript's `a < b` on strings: lexicographic comparison, character by
   * character, where a proper prefix is smaller.
   */
  predicate Less(a: string, b: string)
    decreases |a|
  {
    if |a| == 0 then |b| > 0
    else if |b| == 0 then false
    else if a[0] != b[0] then a[0] < b[0]
    else Less(a[1..], b[1..])
  }

  lemma {:induction false} LessIrreflexive(a: string)
    ensures !Less(a, a)
    decreases |a|
  {
    if |a| > 0 {
      LessIrreflexive(a[1..]);
    }
  }

  lemma {:induction false} LessTransitive(a: string, b: string, c: string)
    requires Less(a, b) && Less(b, c)
    ensures Less(a, c)
    decreases |a|
  {
    if |a| > 0 && a[0] == b[0] && b[0] == c[0] {
      LessTransitive(a[1..], b[1..], c[1..]);
    }
  }

  /** Any two distinct strings are ordered one way or the other. */
  lemma {:induction false} LessTotal(a: string, b: string)
    ensures a == b || Less(a, b) || Less(b, a)
    decreases |a|
  {
    if |a| > 0 && |b| > 0 && a[0] == b[0] {
      LessTotal(a[1..], b[1..]);
      if a[1..] == b[1..] {
        assert a == [a[0]] + a[1..] && b == [b[0]] + b[1..];
      }
    }
  }

  lemma {:induction false} LessAsymmetric(a: string, b: string)
    ensures !(Less(a, b) && Less(b, a))
    decreases |a|
  {
    if |a| > 0 && |b| > 0 && a[0] == b[0] {
      LessAsymmetric(a[1..], b[1..]);
    }
  }

  /** `pat` occurs in `s` starting at index `i`. */
  predicate OccursAt(s: string, pat: string, i: nat)
  {
    i + |pat| <= |s| && s[i..i + |pat|] == pat
  }

  /** `s.indexOf(pat, i)`: the first occurrence of `pat` at or after `i`. */
  function IndexOfFrom(s: string, pat: string, i: nat): (r: Option<nat>)
    requires i <= |s|
    ensures r.Some? ==> i <= r.value && OccursAt(s, pat, r.value)
    ensures r.Some? ==> forall j :: i <= j < r.value ==> !OccursAt(s, pat, j)
    ensures r.None? ==> forall j :: i <= j <= |s| ==> !OccursAt(s, pat, j)
    decreases |s| - i
  {
    if OccursAt(s, pat, i) then Some(i)
    else if i == |s| then None
    else IndexOfFrom(s, pat, i + 1)
  }

  function IndexOf(s: string, pat: string): Option<nat>
  {
    IndexOfFrom(s, pat, 0)
  }

  /** `s.includes(pat)`. */
  predicate Contains(s: string, pat: string)
  {
    IndexOf(s, pat).Some?
  }

  lemma ContainsIff(s: string, pat: string)
    ensures Contains(s, pat) <==> exists i :: 0 <= i <= |s| && OccursAt(s, pat, i)
  {
  }

  /** A pattern found in a part is found in any string built around that part. */
  lemma ContainsInfix(pre: string, mid: string, post: string, pat: string)
    requires Contains(mid, pat)
    ensures Contains(pre + mid + post, pat)
  {
    var s := pre + mid + post;
    var i := IndexOf(mid, pat).value;
    assert s[|pre| + i..|pre| + i + |pat|] == mid[i..i + |pat|];
    assert OccursAt(s, pat, |pre| + i);
    ContainsIff(s, pat);
  }

  /**
   * `s.replace(pat, rep)` with a string pattern: only the first occurrence
   * is replaced; without one, `s` comes back unchanged.
   */
  function ReplaceFirst(s: string, pat: string, rep: string): (r: string)
    ensures !Contains(s, pat) ==> r == s
    ensures Contains(s, pat) ==> |r| == |s| - |pat| + |rep|
    ensures Contains(s, pat) ==>
      var i := IndexOf(s, pat).value;
      r[..i] == s[..i] && r[i..i + |rep|] == rep && r[i + |rep|..] == s[i + |pat|..]
  {
    match IndexOf(s, pat)
    case None => s
    case Some(i) => s[..i] + rep + s[i + |pat|..]
  }

  /** A string that starts with the pattern loses exactly that prefix. */
  lemma ReplaceLeadingOccurrence(pat: string, rest: string, rep: string)
    ensures ReplaceFirst(pat + rest, pat, rep) == rep + rest
  {
    var s := pat + rest;
    assert OccursAt(s, pat, 0) by { assert s[0..|pat|] == pat; }
    assert IndexOf(s, pat) == Some(0);
  }

  /** The characters `String.prototype.trim` removes: WhiteSpace and LineTerminator of ECMAScript. */
  predicate IsJsWhitespace(c: char)
  {
    || c == '\t' || c == '\n' || c == '\U{000B}' || c == '\U{000C}' || c == '\r' || c == ' '
    || c == '\U{00A0}' || c == '\U{1680}' || ('\U{2000}' <= c <= '\U{200A}')
    || c == '\U{2028}' || c == '\U{2029}' || c == '\U{202F}' || c == '\U{205F}'
    || c == '\U{3000}' || c == '\U{FEFF}'
  }

  function TrimStart(s: string): (r: string)
    ensures |r| <= |s| && r == s[|s| - |r|..]
    ensures forall i :: 0 <= i < |s| - |r| ==> IsJsWhitespace(s[i])
    ensures |r| > 0 ==> !IsJsWhitespace(r[0])
  {
    if |s| > 0 && IsJsWhitespace(s[0]) then TrimStart(s[1..]) else s
  }

  function TrimEnd(s: string): (r: string)
    ensures |r| <= |s| && r == s[..|r|]
    ensures forall i :: |r| <= i < |s| ==> IsJsWhitespace(s[i])
    ensures |r| > 0 ==> !IsJsWhitespace(r[|r| - 1])
  {
    if |s| > 0 && IsJsWhitespace(s[|s| - 1]) then TrimEnd(s[..|s| - 1]) else s
  }

  /** `s.trim()`: `s` without leading and trailing whitespace. */
  function Trim(s: string): string
  {
    TrimEnd(TrimStart(s))
  }

  predicate IsTrimmed(s: string)
  {
    |s| == 0 || (!IsJsWhitespace(s[0]) && !IsJsWhitespace(s[|s| - 1]))
  }

  /** `trim` leaves no whitespace at either end. */
  lemma TrimIsTrimmed(s: string)
    ensures IsTrimmed(Trim(s))
  {
    var a := TrimStart(s);
    var b := TrimEnd(a);
    if |b| > 0 {
      assert b[0] == a[0];
    }
  }

  lemma TrimOfTrimmed(s: string)
    requires IsTrimmed(s)
    ensures Trim(s) == s
  {
  }

  /** Leading whitespace before a non-blank start is what `trimStart` removes. */
  lemma {:induction false} TrimStartPadded(pad: string, core: string)
    requires forall i :: 0 <= i < |pad| ==> IsJsWhitespace(pad[i])
    requires |core| > 0 && !IsJsWhitespace(core[0])
    ensures TrimStart(pad + core) == core
    decreases |pad|
  {
    if |pad| > 0 {
      assert (pad + core)[1..] == pad[1..] + core;
      TrimStartPadded(pad[1..], core);
    } else {
      assert pad + core == core;
    }
  }

  /** Trailing whitespace after a non-blank end is what `trimEnd` removes. */
  lemma {:induction false} TrimEndPadded(core: string, pad: string)
    requires forall i :: 0 <= i < |pad| ==> IsJsWhitespace(pad[i])
    requires |core| > 0 && !IsJsWhitespace(core[|core| - 1])
    ensures TrimEnd(core + pad) == core
    decreases |pad|
  {
    if |pad| > 0 {
      assert (core + pad)[..|core + pad| - 1] == core + pad[..|pad| - 1];
      TrimEndPadded(core, pad[..|pad| - 1]);
    } else {
      assert core + pad == core;
    }
  }

  /** `trim` undoes whitespace padding around a trimmed, non-empty string. */
  lemma TrimPadded(pad: string, core: string)
    requires forall i :: 0 <= i < |pad| ==> IsJsWhitespace(pad[i])
    requires IsTrimmed(core) && core != ""
    ensures Trim(pad + core + pad) == core
  {
    assert pad + core + pad == pad + (core + pad);
    TrimStartPadded(pad, core + pad);
    TrimEndPadded(core, pad);
  }

  /** Lower-cases one character (ASCII letters only). */
  function LowerChar(c: char): char
  {
    if 'A' <= c <= 'Z' then (c as int + 32) as char else c
  }

  /** `s.toLowerCase()`, restricted to the ASCII letters. */
  function ToLower(s: string): (r: string)
    ensures |r| == |s|
    ensures forall i :: 0 <= i < |s| ==> r[i] == LowerChar(s[i])
    ensures IsLower(r)
  {
    seq(|s|, i requires 0 <= i < |s| => LowerChar(s[i]))
  }

  /** Lower-casing changes letters only, so a trimmed string stays trimmed. */
  lemma ToLowerKeepsTrimmed(s: string)
    requires IsTrimmed(s)
    ensures IsTrimmed(ToLower(s))
  {
  }

  lemma ToLowerIdempotent(s: string)
    ensures ToLower(ToLower(s)) == ToLower(s)
  {
  }

  /** `s` has no upper-case ASCII letter. */
  predicate IsLower(s: string)
  {
    forall i :: 0 <= i < |s| ==> LowerChar(s[i]) == s[i]
  }

  /** A string without upper-case letters is its own lower case. */
  lemma ToLowerOfLower(s: string)
    requires IsLower(s)
    ensures ToLower(s) == s
  {
  }
}

=== FILE: training_dates.dfy ===
/**
 * The training-date log: an append-only container of Things, each named by
 * the date-time of a training run and holding that same string. The storage
 * URL is a constant of the deployment, a parameter here; `format` stands for
 * the display formatting of a date string.
 */
module TrainingDates {
  import opened Wrappers
  import opened Pod

  /** The record of one training run. */
  function DateThing(logUrl: Url, dateString: string): Thing
  {
    Thing(ThingUrl(logUrl, dateString), map[DateTimeProp := Literal(dateString, XsdString)])
  }

  /**
   * The log and where its dataset came from: the stored log when it reads,
   * otherwise, on a 404, an empty log saved create-only. `keepCreated` says
   * whether the dataset the create call returns is kept (and so is bound to
   * `logUrl`) or dropped in favour of the unbound `createSolidDataset()`.
   */
  function LoadLog(pod: Pod, logUrl: Url, keepCreated: bool): (r: Result<(Pod, Dataset, Option<Url>), PodError>)
    ensures Read(pod, logUrl).Success? ==> r == Success((pod, Read(pod, logUrl).value, Some(logUrl)))
    ensures Read(pod, logUrl).Failure? && Read(pod, logUrl).error.statusCode != Some(404) ==> r == Failure(Read(pod, logUrl).error)
    ensures Read(pod, logUrl).Failure? && Read(pod, logUrl).error.statusCode == Some(404)
            && logUrl !in pod.resources && logUrl !in pod.writeFaults ==>
              r == Success((pod.(resources := pod.resources[logUrl := EmptyDataset]), EmptyDataset, if keepCreated then Some(logUrl) else None))
  {
    match Read(pod, logUrl)
    case Success(ds) => Success((pod, ds, Some(logUrl)))
    case Failure(e) =>
      if e.statusCode == Some(404) then
        match Save(pod, logUrl, EmptyDataset, None)
        case Success(p) => Success((p, EmptyDataset, if keepCreated then Some(logUrl) else None))
        case Failure(e2) => Failure(e2)
      else Failure(e)
  }

  /** Sets the dated record into the loaded log and saves it; a failed save is swallowed. */
  function AppendDate(loaded: Result<(Pod, Dataset, Option<Url>), PodError>, pod: Pod, logUrl: Url, dateString: string): Pod
  {
    match loaded
    case Failure(_) => pod
    case Success((p, ds, fetchedFrom)) =>
      match Save(p, logUrl, SetThing(ds, DateThing(logUrl, dateString)), fetchedFrom)
      case Success(p') => p'
      case Failure(_) => p
  }

  /**
   * `saveTrainingDate` as written: a missing log is created by saving an
   * empty dataset, and the record is then set into that same unbound
   * dataset, so its second save is create-only too and meets the log the
   * first save created.
   */
  function SaveTrainingDateAsWritten(pod: Pod, logUrl: Url, dateString: string): (r: Pod)
    ensures r.readFaults == pod.readFaults && r.writeFaults == pod.writeFaults
    ensures forall u :: u != logUrl ==> (u in r.resources <==> u in pod.resources)
    ensures forall u :: u != logUrl && u in pod.resources ==> r.resources[u] == pod.resources[u]
  {
    AppendDate(LoadLog(pod, logUrl, false), pod, logUrl, dateString)
  }

  /**
   * `saveTrainingDate` as intended: the dataset the creating save returns is
   * kept, so the record is saved as an update of the new log. Any other read
   * error and any save error are swallowed.
   */
  function SaveTrainingDate(pod: Pod, logUrl: Url, dateString: string): (r: Pod)
    ensures r.readFaults == pod.readFaults && r.writeFaults == pod.writeFaults
    ensures forall u :: u != logUrl ==> (u in r.resources <==> u in pod.resources)
    ensures forall u :: u != logUrl && u in pod.resources ==> r.resources[u] == pod.resources[u]
  {
    AppendDate(LoadLog(pod, logUrl, true), pod, logUrl, dateString)
  }

  /** With a readable (or missing) log and a writable URL, the dated record is set into the log. */
  lemma SaveAppendsOneRecord(pod: Pod, logUrl: Url, dateString: string)
    requires logUrl !in pod.readFaults && logUrl !in pod.writeFaults
    ensures var before := if logUrl in pod.resources then pod.resources[logUrl] else EmptyDataset;
            SaveTrainingDate(pod, logUrl, dateString).resources == pod.resources[logUrl := SetThing(before, DateThing(logUrl, dateString))]
  {
  }

  /** On a log that already exists, the code as written and the corrected one agree. */
  lemma AsWrittenAgreesOnExistingLog(pod: Pod, logUrl: Url, dateString: string)
    requires Read(pod, logUrl).Success?
    ensures SaveTrainingDateAsWritten(pod, logUrl, dateString) == SaveTrainingDate(pod, logUrl, dateString)
  {
  }

  /**
   * The first training run logs no date: the log is created empty, and the
   * save of the record fails with 412 because the log now exists.
   */
  lemma FirstRunLogsNoDate(pod: Pod, logUrl: Url, dateString: string)
    requires logUrl !in pod.readFaults && logUrl !in pod.writeFaults && logUrl !in pod.resources
    ensures SaveTrainingDateAsWritten(pod, logUrl, dateString) == pod.(resources := pod.resources[logUrl := EmptyDataset])
    ensures SaveTrainingDate(pod, logUrl, dateString) == pod.(resources := pod.resources[logUrl := Dataset([DateThing(logUrl, dateString)], [])])
  {
    var created := pod.(resources := pod.resources[logUrl := EmptyDataset]);
    var record := DateThing(logUrl, dateString);
    assert Save(created, logUrl, SetThing(EmptyDataset, record), None) == Failure(PreconditionFailed(logUrl));
    assert SetThing(EmptyDataset, record) == Dataset([record], []);
  }

  /** A save that fails leaves the Pod as it was. */
  lemma FailedSaveAppendsNothing(pod: Pod, logUrl: Url, dateString: string)
    requires (logUrl in pod.readFaults && pod.readFaults[logUrl].statusCode != Some(404)) || logUrl in pod.writeFaults
    ensures SaveTrainingDate(pod, logUrl, dateString) == pod
  {
  }

  /** The date strings of the log in container order; things without one (or with an empty one) are dropped. */
  function Dates(things: seq<Thing>): (r: seq<string>)
    ensures |r| <= |things|
    ensures forall i :: 0 <= i < |r| ==> r[i] != ""
  {
    if |things| == 0 then []
    else
      var rest := Dates(things[..|things| - 1]);
      match GetString(things[|things| - 1], DateTimeProp)
      case Some(d) => if d != "" then rest + [d] else rest
      case None => rest
  }

  lemma {:induction false} DatesAppend(a: seq<Thing>, b: seq<Thing>)
    ensures Dates(a + b) == Dates(a) + Dates(b)
    decreases |b|
  {
    if |b| == 0 {
      assert a + b == a;
    } else {
      assert (a + b)[..|a + b| - 1] == a + b[..|b| - 1];
      DatesAppend(a, b[..|b| - 1]);
    }
  }

  /** Each date passed through the display formatter. */
  function FormatAll(dates: seq<string>, format: string -> string): (r: seq<string>)
    ensures |r| == |dates|
    ensures forall i :: 0 <= i < |r| ==> r[i] == format(dates[i])
  {
    if |dates| == 0 then [] else FormatAll(dates[..|dates| - 1], format) + [format(dates[|dates| - 1])]
  }

  /** `fetchTrainingDates`: the formatted dates in container order, or `[]` on any read error. */
  function FetchTrainingDates(pod: Pod, logUrl: Url, format: string -> string): (r: seq<string>)
    ensures Read(pod, logUrl).Failure? ==> r == []
    ensures Read(pod, logUrl).Success? ==> r == FormatAll(Dates(Read(pod, logUrl).value.things), format)
  {
    match Read(pod, logUrl)
    case Failure(_) => []
    case Success(ds) => FormatAll(Dates(ds.things), format)
  }

  lemma DatesOfRecord(logUrl: Url, dateString: string)
    requires dateString != ""
    ensures Dates([DateThing(logUrl, dateString)]) == [dateString]
  {
    var t := DateThing(logUrl, dateString);
    assert [t][..0] == [];
    assert GetString(t, DateTimeProp) == Some(dateString);
  }

  /**
   * Round trip: after a successful save under a new name, listing the log
   * gives the earlier dates followed by the new one.
   */
  lemma SaveThenFetch(pod: Pod, logUrl: Url, dateString: string, format: string -> string)
    requires logUrl !in pod.readFaults && logUrl !in pod.writeFaults && dateString != ""
    requires logUrl in pod.resources
    requires forall i :: 0 <= i < |pod.resources[logUrl].things| ==> pod.resources[logUrl].things[i].url != ThingUrl(logUrl, dateString)
    ensures FetchTrainingDates(SaveTrainingDate(pod, logUrl, dateString), logUrl, format)
            == FetchTrainingDates(pod, logUrl, format) + [format(dateString)]
  {
    var before := pod.resources[logUrl];
    var t := DateThing(logUrl, dateString);
    SaveAppendsOneRecord(pod, logUrl, dateString);
    SetFreshThing(before, t);
    var r := SaveTrainingDate(pod, logUrl, dateString);
    assert Read(r, logUrl) == Success(Dataset(before.things + [t], before.contained));
    DatesAppend(before.things, [t]);
    DatesOfRecord(logUrl, dateString);
    var d := Dates(before.things);
    assert Dates(before.things + [t]) == d + [dateString];
    assert (d + [dateString])[..|d|] == d;
  }
}

=== FILE: training_page.dfy ===
/**
 * The training page: the distinct predicted doses of the day read from the
 * prediction container, the six-value threshold, the feature records posted
 * to `/train`, and the training-date bookkeeping after a successful run.
 */
module TrainingPage {
  import opened Wrappers
  import opened Js
  import opened Pod
  import Seqs
  import TrainingDates
  import TrainingServer

  /** The number of distinct values (one per time slot) a training run needs. */
  const MinimumValues := 6

  /** The keys of one feature record, in the order of the object literal. */
  const RecordKeys: seq<string> := [
    "feature1", "feature2",
    "Insulina al Risveglio (07:00)", "Insulina alle 09:30", "Insulina alle 13:00",
    "Insulina alle 15:00", "Insulina alle 18:00", "Insulina alle 23:00"]

  /** The `predictedInsulin` strings of the things, in thing order, skipping things without one. */
  function PredictedValues(things: seq<Thing>): (r: seq<string>)
    ensures |r| <= |things|
  {
    if |things| == 0 then []
    else
      var rest := PredictedValues(things[..|things| - 1]);
      match GetString(things[|things| - 1], PredictedInsulinProp)
      case Some(v) => rest + [v]
      case None => rest
  }

  lemma {:induction false} PredictedValuesAppend(a: seq<Thing>, b: seq<Thing>)
    ensures PredictedValues(a + b) == PredictedValues(a) + PredictedValues(b)
    decreases |b|
  {
    if |b| == 0 {
      assert a + b == a;
    } else {
      assert (a + b)[..|a + b| - 1] == a + b[..|b| - 1];
      PredictedValuesAppend(a, b[..|b| - 1]);
    }
  }

  /** A value is extracted exactly when some thing carries it as its predicted dose. */
  lemma {:induction false} PredictedValuesMembership(things: seq<Thing>, v: string)
    ensures v in PredictedValues(things) <==> exists i :: 0 <= i < |things| && GetString(things[i], PredictedInsulinProp) == Some(v)
    decreases |things|
  {
    if |things| > 0 {
      var front := things[..|things| - 1];
      PredictedValuesMembership(front, v);
      if exists i :: 0 <= i < |front| && GetString(front[i], PredictedInsulinProp) == Some(v) {
        var i :| 0 <= i < |front| && GetString(front[i], PredictedInsulinProp) == Some(v);
        assert things[i] == front[i];
      }
      if exists i :: 0 <= i < |things| && GetString(things[i], PredictedInsulinProp) == Some(v) {
        var i :| 0 <= i < |things| && GetString(things[i], PredictedInsulinProp) == Some(v);
        if i < |front| {
          assert front[i] == things[i];
        }
      }
    }
  }

  /** `uniqueValues`: the extracted values, each once, in order of first occurrence. */
  function UniqueValues(things: seq<Thing>): (r: seq<string>)
    ensures Seqs.Distinct(r)
    ensures forall v :: v in r <==> exists i :: 0 <= i < |things| && GetString(things[i], PredictedInsulinProp) == Some(v)
  {
    var values := PredictedValues(things);
    var r := Seqs.Dedup(values);
    forall v
      ensures v in r <==> exists i :: 0 <= i < |things| && GetString(things[i], PredictedInsulinProp) == Some(v)
    {
      PredictedValuesMembership(things, v);
      if v in values {
        var k :| 0 <= k < |values| && values[k] == v;
      }
      if v in r {
        var k :| 0 <= k < |r| && r[k] == v;
      }
    }
    r
  }

  /** What `fetchPredictions` leaves: the unique values (and whether the empty-list warning shows), or the error. */
  datatype FetchOutcome = Loaded(values: seq<string>, warnEmpty: bool) | FetchError(error: PodError)

  /**
   * `fetchPredictions`. A 404 on the day's prediction container creates it
   * and yields no values; any other failure becomes the page error.
   */
  function FetchPredictions(pod: Pod, predictionsUrl: Url): (r: (Pod, FetchOutcome))
    ensures r.1.Loaded? ==> (r.1.warnEmpty <==> |r.1.values| == 0)
    ensures Read(pod, predictionsUrl).Success? ==> r == (pod, Loaded(UniqueValues(Read(pod, predictionsUrl).value.things), |UniqueValues(Read(pod, predictionsUrl).value.things)| == 0))
    ensures r.1.Loaded? && Read(pod, predictionsUrl).Failure? ==> r.1.values == [] && r.0 == pod.(resources := pod.resources[predictionsUrl := EmptyDataset])
    ensures Read(pod, predictionsUrl).Failure? && Read(pod, predictionsUrl).error.statusCode == Some(404)
            && predictionsUrl !in pod.writeFaults && predictionsUrl !in pod.resources ==>
              r == (pod.(resources := pod.resources[predictionsUrl := EmptyDataset]), Loaded([], true))
    ensures Read(pod, predictionsUrl).Failure? && Read(pod, predictionsUrl).error.statusCode == Some(404)
            && (predictionsUrl in pod.writeFaults || predictionsUrl in pod.resources) ==>
              r == (pod, FetchError(CreateContainer(pod, predictionsUrl).error))
    ensures Read(pod, predictionsUrl).Failure? && Read(pod, predictionsUrl).error.statusCode != Some(404) ==>
              r == (pod, FetchError(Read(pod, predictionsUrl).error))
    ensures r.1.FetchError? ==> r.0 == pod
  {
    match Read(pod, predictionsUrl)
    case Success(ds) =>
      var values := UniqueValues(ds.things);
      (pod, Loaded(values, |values| == 0))
    case Failure(e) =>
      if e.statusCode == Some(404) then
        match CreateContainer(pod, predictionsUrl)
        case Success(p) => (p, Loaded([], true))
        case Failure(e2) => (pod, FetchError(e2))
      else (pod, FetchError(e))
  }

  /** One record of the training set: all eight fields hold the parsed value. */
  function FeatureRecord(value: string, parseFloat: string -> Number): (r: JsonObject)
    ensures |r| == |RecordKeys|
    ensures forall i :: 0 <= i < |r| ==> r[i] == (RecordKeys[i], ToJson(parseFloat(value)))
  {
    var n := ToJson(parseFloat(value));
    seq(|RecordKeys|, i requires 0 <= i < |RecordKeys| => (RecordKeys[i], n))
  }

  /** `formattedData`: one record per unique value, in order. */
  function FeatureRecords(values: seq<string>, parseFloat: string -> Number): (r: seq<JsonObject>)
    ensures |r| == |values|
    ensures forall i :: 0 <= i < |r| ==> r[i] == FeatureRecord(values[i], parseFloat)
  {
    seq(|values|, i requires 0 <= i < |values| => FeatureRecord(values[i], parseFloat))
  }

  /** The body posted to `/train`: `{ features: formattedData }`. */
  function TrainRequest(values: seq<string>, parseFloat: string -> Number): (r: TrainingServer.TrainBody)
    ensures r.Some? && r.value.Keys == {"features"} && r.value["features"].Rows?
    ensures |r.value["features"].rows| == |values|
    ensures forall i :: 0 <= i < |values| ==> r.value["features"].rows[i] == FeatureRecord(values[i], parseFloat)
  {
    Some(map["features" := TrainingServer.Rows(FeatureRecords(values, parseFloat))])
  }

  datatype TrainToast = NoToast | NotEnoughValues | TrainingSucceeded

  /** What a press of the training button leaves: toast, request sent, Pod, and the listed dates. */
  datatype SendOutcome = SendOutcome(toast: TrainToast, posted: Option<TrainingServer.TrainBody>, pod: Pod, dates: seq<string>)

  /**
   * `sendTrainingData`. Below six unique values nothing is sent. Otherwise
   * the records are posted; only an ok reply whose body parses saves the
   * training date and reloads the list; every other reply is only logged.
   */
  function SendTrainingData(values: seq<string>, reply: HttpReply, pod: Pod, dates: seq<string>, logUrl: Url, now: string,
                            parseFloat: string -> Number, format: string -> string): (r: SendOutcome)
    ensures |values| < MinimumValues <==> r.toast == NotEnoughValues
    ensures |values| < MinimumValues ==> r.posted.None? && r.pod == pod && r.dates == dates
    ensures |values| >= MinimumValues ==> r.posted == Some(TrainRequest(values, parseFloat))
    ensures r.toast == TrainingSucceeded <==> |values| >= MinimumValues && reply.Responded? && reply.jsonBody && IsOk(reply.status)
    ensures r.toast == TrainingSucceeded ==> r.pod == TrainingDates.SaveTrainingDate(pod, logUrl, now) && r.dates == TrainingDates.FetchTrainingDates(r.pod, logUrl, format)
    ensures r.toast != TrainingSucceeded ==> r.pod == pod && r.dates == dates
  {
    if |values| < MinimumValues then SendOutcome(NotEnoughValues, None, pod, dates)
    else
      var body := TrainRequest(values, parseFloat);
      match reply
      case Unreachable => SendOutcome(NoToast, Some(body), pod, dates)
      case Responded(status, jsonBody) =>
        if jsonBody && IsOk(status) then
          var pod' := TrainingDates.SaveTrainingDate(pod, logUrl, now);
          SendOutcome(TrainingSucceeded, Some(body), pod', TrainingDates.FetchTrainingDates(pod', logUrl, format))
        else SendOutcome(NoToast, Some(body), pod, dates)
  }

  /**
   * The page and the training server agree: for any non-empty list of values
   * the posted records carry all six target columns, so the request passes
   * validation, and the frame splits into the two plain features and the
   * six targets in the server's order.
   */
  lemma RecordsPassTrainingValidation(values: seq<string>, parseFloat: string -> Number)
    requires |values| > 0
    ensures TrainingServer.Train(TrainRequest(values, parseFloat), true)
            == TrainingServer.Trained(["feature1", "feature2"], TrainingServer.TargetLabels)
  {
    var rows: seq<JsonObject> := FeatureRecords(values, parseFloat);
    UniformRecordsHaveRecordKeys(values, parseFloat);
    DropGivesPlainFeatures();
    var body := TrainRequest(values, parseFloat);
    assert body.value["features"] == TrainingServer.Rows(rows);
    forall k | 0 <= k < 6
      ensures TrainingServer.TargetLabels[k] in TrainingServer.Columns(rows)
    {
      assert TrainingServer.TargetLabels[k] == RecordKeys[k + 2];
    }
  }

  lemma UniformRecordsHaveRecordKeys(values: seq<string>, parseFloat: string -> Number)
    requires |values| > 0
    ensures TrainingServer.Columns(FeatureRecords(values, parseFloat)) == RecordKeys
  {
    var rows: seq<JsonObject> := FeatureRecords(values, parseFloat);
    assert Seqs.Distinct(RecordKeys);
    forall n: nat, i: nat | n < |rows| && i < |RecordKeys|
      ensures rows[n][i].0 == RecordKeys[i]
    {
      assert rows[n] == FeatureRecord(values[n], parseFloat);
    }
    TrainingServer.UniformRecordsGiveTheirKeys(rows, RecordKeys);
  }

  lemma DropGivesPlainFeatures()
    ensures TrainingServer.DropTargets(RecordKeys) == ["feature1", "feature2"]
  {
    var labels := TrainingServer.TargetLabels;
    FeaturesAreNotTargets();
    TargetsAreDropped(labels);
    KeptBeforeTargets("feature1", "feature2", labels);
    RecordKeysAreFeaturesThenTargets();
  }

  lemma RecordKeysAreFeaturesThenTargets()
    ensures RecordKeys == ["feature1", "feature2"] + TrainingServer.TargetLabels
  {
  }

  /** Two kept columns in front of columns that are all dropped survive alone. */
  lemma KeptBeforeTargets(a: string, b: string, rest: seq<string>)
    requires a !in TrainingServer.TargetLabels && b !in TrainingServer.TargetLabels
    requires TrainingServer.DropTargets(rest) == []
    ensures TrainingServer.DropTargets([a, b] + rest) == [a, b]
  {
    var columns := [a, b] + rest;
    assert columns[1..] == [b] + rest && columns[1..][1..] == rest;
    KeptHead(columns[1..]);
    KeptHead(columns);
  }

  /** Every target label starts with an upper-case `I`, so neither feature name is one. */
  lemma FeaturesAreNotTargets()
    ensures "feature1" !in TrainingServer.TargetLabels && "feature2" !in TrainingServer.TargetLabels
  {
    forall k | 0 <= k < |TrainingServer.TargetLabels|
      ensures |TrainingServer.TargetLabels[k]| > 0 && TrainingServer.TargetLabels[k][0] == 'I'
    {
    }
  }

  lemma KeptHead(columns: seq<string>)
    requires |columns| > 0 && columns[0] !in TrainingServer.TargetLabels
    ensures TrainingServer.DropTargets(columns) == [columns[0]] + TrainingServer.DropTargets(columns[1..])
  {
  }

  lemma {:induction false} TargetsAreDropped(columns: seq<string>)
    requires forall i :: 0 <= i < |columns| ==> columns[i] in TrainingServer.TargetLabels
    ensures TrainingServer.DropTargets(columns) == []
  {
    if |columns| > 0 {
      TargetsAreDropped(columns[1..]);
    }
  }

  /**
   * End to end: with six or more values and a reachable server whose fit
   * succeeds, the training date is saved once and the log, if it exists and
   * is writable, lists the new date last.
   */
  lemma SuccessfulTrainingLogsTheDate(values: seq<string>, pod: Pod, dates: seq<string>, logUrl: Url, now: string,
                                      parseFloat: string -> Number, format: string -> string)
    requires |values| >= MinimumValues && now != ""
    requires logUrl !in pod.readFaults && logUrl !in pod.writeFaults && logUrl in pod.resources
    requires forall i :: 0 <= i < |pod.resources[logUrl].things| ==> pod.resources[logUrl].things[i].url != ThingUrl(logUrl, now)
    ensures var status := TrainingServer.StatusOf(TrainingServer.Train(TrainRequest(values, parseFloat), true));
            var r := SendTrainingData(values, Responded(status, true), pod, dates, logUrl, now, parseFloat, format);
            r.toast == TrainingSucceeded && r.dates == TrainingDates.FetchTrainingDates(pod, logUrl, format) + [format(now)]
  {
    RecordsPassTrainingValidation(values, parseFloat);
    TrainingDates.SaveThenFetch(pod, logUrl, now, format);
  }
}

=== FILE: training_server.dfy ===
/**
 * The `/train` endpoint of the training server: validation of the request
 * body, the column set of the frame built from the feature records, and the
 * split into input columns and the six target columns. Fitting and saving
 * the model are uninterpreted: `fitSucceeds` says whether `model.fit` and
 * `joblib.dump` return normally.
 */
module TrainingServer {
  import opened Wrappers
  import opened Js
  import Seqs

  const TargetLabels: seq<string> := [
    "Insulina al Risveglio (07:00)", "Insulina alle 09:30", "Insulina alle 13:00",
    "Insulina alle 15:00", "Insulina alle 18:00", "Insulina alle 23:00"]

  /** The value under `'features'`: a list of records, or something pandas cannot build a frame from. */
  datatype FeaturesValue = Rows(rows: seq<JsonObject>) | NotRows

  /** The JSON object of the request, `None` when there is no JSON body. */
  type TrainBody = Option<map<string, FeaturesValue>>

  datatype TrainResponse =
    | Trained(inputColumns: seq<string>, targetColumns: seq<string>)
    | BadRequest(error: string)
    | ServerError

  const InvalidFormat := "Invalid data format"
  const MissingTargets := "Missing one or more target columns in data"

  function StatusOf(r: TrainResponse): int
  {
    match r
    case Trained(_, _) => 200
    case BadRequest(_) => 400
    case ServerError => 500
  }

  /** The keys of every record, record after record. */
  function AllKeys(rows: seq<JsonObject>): seq<string>
  {
    if |rows| == 0 then [] else AllKeys(rows[..|rows| - 1]) + seq(|rows[|rows| - 1]|, i requires 0 <= i < |rows[|rows| - 1]| => rows[|rows| - 1][i].0)
  }

  /** `pd.DataFrame(records).columns`: every key once, in order of first appearance. */
  function Columns(rows: seq<JsonObject>): seq<string>
  {
    Seqs.Dedup(AllKeys(rows))
  }

  /** The columns left after `df.drop(columns=target_labels)`, in frame order. */
  function DropTargets(columns: seq<string>): (r: seq<string>)
    ensures forall i :: 0 <= i < |r| ==> r[i] in columns && r[i] !in TargetLabels
    ensures forall c :: c in columns && c !in TargetLabels ==> c in r
  {
    if |columns| == 0 then []
    else if columns[0] in TargetLabels then DropTargets(columns[1..])
    else [columns[0]] + DropTargets(columns[1..])
  }

  /** Dropping the targets works column by column: it distributes over concatenation. */
  lemma {:induction false} DropTargetsAppend(a: seq<string>, b: seq<string>)
    ensures DropTargets(a + b) == DropTargets(a) + DropTargets(b)
    decreases |a|
  {
    if |a| == 0 {
      assert a + b == b;
    } else {
      assert (a + b)[0] == a[0];
      assert (a + b)[1..] == a[1..] + b;
      DropTargetsAppend(a[1..], b);
    }
  }

  /** A single column is kept exactly when it is not a target. */
  lemma DropTargetsSingle(c: string)
    ensures DropTargets([c]) == if c in TargetLabels then [] else [c]
  {
    assert [c][1..] == [];
  }

  /** `train()`. */
  function Train(body: TrainBody, fitSucceeds: bool): (r: TrainResponse)
    ensures r == BadRequest(InvalidFormat) <==> body.None? || "features" !in body.value
    ensures r == BadRequest(MissingTargets) <==>
              && body.Some? && "features" in body.value && body.value["features"].Rows?
              && exists k :: 0 <= k < 6 && TargetLabels[k] !in Columns(body.value["features"].rows)
    ensures r.Trained? ==> fitSucceeds && body.Some? && "features" in body.value && body.value["features"].Rows?
    ensures r.Trained? ==> r.targetColumns == TargetLabels
    ensures r.Trained? ==>
              var columns := Columns(body.value["features"].rows);
              && (forall k :: 0 <= k < 6 ==> TargetLabels[k] in columns)
              && forall c :: c in columns <==> c in r.inputColumns || c in r.targetColumns
    ensures r.Trained? ==> forall c :: c in r.inputColumns ==> c !in r.targetColumns
    ensures body.Some? && "features" in body.value && body.value["features"].NotRows? ==> r == ServerError
    ensures body.Some? && "features" in body.value && body.value["features"].Rows?
            && (forall k :: 0 <= k < 6 ==> TargetLabels[k] in Columns(body.value["features"].rows)) ==>
              (r.Trained? <==> fitSucceeds) && (!fitSucceeds ==> r == ServerError)
  {
    if body.None? || |body.value| == 0 || "features" !in body.value then BadRequest(InvalidFormat)
    else match body.value["features"]
      case NotRows => ServerError
      case Rows(rows) =>
        var columns := Columns(rows);
        if !(forall k :: 0 <= k < 6 ==> TargetLabels[k] in columns) then BadRequest(MissingTargets)
        else if !fitSucceeds then ServerError
        else Trained(DropTargets(columns), TargetLabels)
  }

  /** Records that all carry the same distinct keys give exactly those columns. */
  lemma {:induction false} UniformRecordsGiveTheirKeys(rows: seq<JsonObject>, keys: seq<string>)
    requires |rows| > 0 && Seqs.Distinct(keys)
    requires forall n :: 0 <= n < |rows| ==> |rows[n]| == |keys| && forall i :: 0 <= i < |keys| ==> rows[n][i].0 == keys[i]
    ensures Columns(rows) == keys
    decreases |rows|
  {
    var last := rows[|rows| - 1];
    var lastKeys := seq(|last|, i requires 0 <= i < |last| => last[i].0);
    assert lastKeys == keys;
    if |rows| == 1 {
      assert AllKeys(rows) == AllKeys(rows[..0]) + lastKeys;
      assert AllKeys(rows) == keys;
      Seqs.DedupOfDistinct(keys);
    } else {
      var front := rows[..|rows| - 1];
      UniformRecordsGiveTheirKeys(front, keys);
      assert AllKeys(rows) == AllKeys(front) + keys;
      forall x | x in keys
        ensures x in AllKeys(front)
      {
        assert x in Seqs.Dedup(AllKeys(front));
      }
      Seqs.DedupAppendSeen(AllKeys(front), keys);
    }
  }
}

=== FILE: upload_data_to_pod.dfy ===
/**
 * `uploadDataToPod`: one glucose measurement written as a new Thing into the
 * day's dataset. `name` stands for `measurement-${Date.now()}`, `parseFloat`
 * for the global of that name, and `show` for the decimal serialisation the
 * client library applies to the parsed number.
 */
module UploadDataToPod {
  import opened Wrappers
  import opened Js
  import opened Pod

  /** The object the insert form passes in; every field is the form's text. */
  datatype MeasurementData = MeasurementData(selectedTime: string, glucoseValue: string, date: string, timestamp: string)

  datatype UploadToast = NoToast | NotAuthenticated

  datatype UploadOutcome = UploadOutcome(pod: Pod, toast: UploadToast)

  /** The new Thing: slot and insertion time as strings, the glucose value as a decimal. */
  function MeasurementThing(datasetUrl: Url, name: string, data: MeasurementData, parseFloat: string -> Number, show: Number -> string): (t: Thing)
    ensures t.url == ThingUrl(datasetUrl, name)
    ensures GetString(t, TimeProp) == Some(data.selectedTime)
    ensures GetString(t, TimestampProp) == Some(data.timestamp)
    ensures GetLiteral(t, GlucoseProp) == Some(Literal(show(parseFloat(data.glucoseValue)), XsdDecimal))
  {
    Thing(ThingUrl(datasetUrl, name),
          map[TimeProp := Literal(data.selectedTime, XsdString),
              GlucoseProp := Literal(show(parseFloat(data.glucoseValue)), XsdDecimal),
              TimestampProp := Literal(data.timestamp, XsdString)])
  }

  /**
   * The dataset the new Thing is set into: the stored one, an empty one when
   * the read fails with `statusCode` 404, nothing on any other error.
   */
  function BaseDataset(pod: Pod, datasetUrl: Url): (r: Option<Dataset>)
    ensures Read(pod, datasetUrl).Success? ==> r == Some(Read(pod, datasetUrl).value)
    ensures datasetUrl !in pod.readFaults && datasetUrl !in pod.resources ==> r == Some(EmptyDataset)
    ensures r.None? <==> datasetUrl in pod.readFaults && pod.readFaults[datasetUrl].statusCode != Some(404)
  {
    match Read(pod, datasetUrl)
    case Success(ds) => Some(ds)
    case Failure(e) => if e.statusCode == Some(404) then Some(EmptyDataset) else None
  }

  /**
   * The upload: without a login only the error toast; otherwise the
   * updated dataset is saved, and a failed read or save is logged and
   * swallowed. A dataset created after a 404 is saved create-only, so it
   * fails with 412 if the resource exists after all. The verification read at the end only logs.
   */
  function Upload(pod: Pod, loggedIn: bool, datasetUrl: Url, data: MeasurementData, name: string,
                  parseFloat: string -> Number, show: Number -> string): (r: UploadOutcome)
    ensures !loggedIn ==> r == UploadOutcome(pod, NotAuthenticated)
    ensures loggedIn ==> r.toast == NoToast
    ensures r.pod.readFaults == pod.readFaults && r.pod.writeFaults == pod.writeFaults
    ensures forall u :: u != datasetUrl ==> (u in r.pod.resources <==> u in pod.resources)
    ensures forall u :: u != datasetUrl && u in pod.resources ==> r.pod.resources[u] == pod.resources[u]
    ensures r.pod != pod ==>
              && loggedIn && BaseDataset(pod, datasetUrl).Some? && datasetUrl !in pod.writeFaults
              && (Read(pod, datasetUrl).Success? || datasetUrl !in pod.resources)
              && datasetUrl in r.pod.resources
              && r.pod.resources[datasetUrl].things ==
                 WithoutUrl(BaseDataset(pod, datasetUrl).value.things, ThingUrl(datasetUrl, name))
                 + [MeasurementThing(datasetUrl, name, data, parseFloat, show)]
  {
    if !loggedIn then UploadOutcome(pod, NotAuthenticated)
    else match BaseDataset(pod, datasetUrl)
      case None => UploadOutcome(pod, NoToast)
      case Some(ds) =>
        var updated := SetThing(ds, MeasurementThing(datasetUrl, name, data, parseFloat, show));
        var fetchedFrom := if Read(pod, datasetUrl).Success? then Some(datasetUrl) else None;
        match Save(pod, datasetUrl, updated, fetchedFrom)
        case Success(p) => UploadOutcome(p, NoToast)
        case Failure(_) => UploadOutcome(pod, NoToast)
  }

  /**
   * With a login, a readable (or missing) dataset, a writable URL and a
   * fresh name, the upload appends exactly one Thing to the day's dataset.
   */
  lemma UploadAppendsOneThing(pod: Pod, datasetUrl: Url, data: MeasurementData, name: string,
                              parseFloat: string -> Number, show: Number -> string)
    requires datasetUrl !in pod.readFaults && datasetUrl !in pod.writeFaults
    requires datasetUrl in pod.resources ==>
               forall i :: 0 <= i < |pod.resources[datasetUrl].things| ==>
                 pod.resources[datasetUrl].things[i].url != ThingUrl(datasetUrl, name)
    ensures var before := if datasetUrl in pod.resources then pod.resources[datasetUrl] else EmptyDataset;
            var r := Upload(pod, true, datasetUrl, data, name, parseFloat, show);
            && datasetUrl in r.pod.resources
            && r.pod.resources[datasetUrl] ==
               Dataset(before.things + [MeasurementThing(datasetUrl, name, data, parseFloat, show)], before.contained)
  {
    var before := if datasetUrl in pod.resources then pod.resources[datasetUrl] else EmptyDataset;
    assert BaseDataset(pod, datasetUrl) == Some(before);
    SetFreshThing(before, MeasurementThing(datasetUrl, name, data, parseFloat, show));
  }
}

=== FILE: value_graph.dfy ===
/**
 * The prediction chart: the day's prediction things folded into a map keyed
 * by the parsed insulin value (first occurrence wins), then unrolled into
 * four index-aligned arrays, and the x-axis tick callback. `barLabel` stands for
 * the `Insulin: x.toFixed(2)` formatting.
 */
module ValueGraph {
  import opened Wrappers
  import opened Js
  import opened Pod
  import Seqs

  /** One bar: the parsed insulin value (the map key), the parsed glucose value and the slot. */
  datatype Point = Point(insulin: Number, glucose: Number, time: string)

  /**
   * A thing contributes when it has an insulin literal, a glucose literal
   * and a truthy (non-empty) `time` string.
   */
  function Contribution(t: Thing, parseFloat: string -> Number): (r: Option<Point>)
    ensures r.Some? <==> PredictedInsulinProp in t.props && GlucoseProp in t.props && GetString(t, TimeProp).Some? && GetString(t, TimeProp).value != ""
  {
    match (GetLiteral(t, PredictedInsulinProp), GetLiteral(t, GlucoseProp), GetString(t, TimeProp))
    case (Some(i), Some(g), Some(time)) =>
      if time != "" then Some(Point(parseFloat(i.lexical), parseFloat(g.lexical), time)) else None
    case _ => None
  }

  /** The contributing things, in order. */
  function Contributions(things: seq<Thing>, parseFloat: string -> Number): (r: seq<Point>)
    ensures |r| <= |things|
  {
    if |things| == 0 then []
    else
      var rest := Contributions(things[..|things| - 1], parseFloat);
      match Contribution(things[|things| - 1], parseFloat)
      case Some(p) => rest + [p]
      case None => rest
  }

  /** Contributions are collected thing by thing: they distribute over concatenation. */
  lemma {:induction false} ContributionsAppend(a: seq<Thing>, b: seq<Thing>, parseFloat: string -> Number)
    ensures Contributions(a + b, parseFloat) == Contributions(a, parseFloat) + Contributions(b, parseFloat)
    decreases |b|
  {
    if |b| == 0 {
      assert a + b == a;
    } else {
      assert (a + b)[..|a + b| - 1] == a + b[..|b| - 1];
      ContributionsAppend(a, b[..|b| - 1], parseFloat);
    }
  }

  /** A single thing contributes its point, or nothing. */
  lemma ContributionsSingle(t: Thing, parseFloat: string -> Number)
    ensures Contributions([t], parseFloat) == match Contribution(t, parseFloat) case Some(p) => [p] case None => []
  {
    assert [t][..0] == [];
  }

  function Keys(points: seq<Point>): (r: seq<Number>)
    ensures |r| == |points|
    ensures forall i :: 0 <= i < |r| ==> r[i] == points[i].insulin
  {
    seq(|points|, i requires 0 <= i < |points| => points[i].insulin)
  }

  /**
   * The entries of `dataMap` in insertion order: a point is kept only when
   * its key is not yet present (`Map` treats every NaN as one key).
   */
  function FirstPerKey(points: seq<Point>): (r: seq<Point>)
    ensures Keys(r) == Seqs.Dedup(Keys(points))
  {
    if |points| == 0 then []
    else
      var front := points[..|points| - 1];
      var last := points[|points| - 1];
      var rest := FirstPerKey(front);
      KeysOfFront(points);
      if last.insulin in Keys(rest) then rest else rest + [last]
  }

  /**
   * Every key that occurs is kept, and the entry kept for it is the first
   * point with that key.
   */
  lemma FirstOccurrenceWins(points: seq<Point>, x: Number)
    requires x in Keys(points)
    ensures x in Keys(FirstPerKey(points))
    ensures FirstPerKey(points)[Seqs.FirstIndex(Keys(FirstPerKey(points)), x)] == points[Seqs.FirstIndex(Keys(points), x)]
  {
    var kept := FirstPerKey(points);
    var k := Seqs.FirstIndex(Keys(points), x);
    assert Keys(points)[k] == x && x in Seqs.Dedup(Keys(points));
    var j := Seqs.FirstIndex(Keys(kept), x);
    FirstOccurrenceAt(points, j);
  }

  /** The entry kept at position `i` is the first point with its key. */
  lemma {:induction false} FirstOccurrenceAt(points: seq<Point>, i: nat)
    requires i < |FirstPerKey(points)|
    ensures FirstPerKey(points)[i].insulin in Keys(points)
    ensures FirstPerKey(points)[i] == points[Seqs.FirstIndex(Keys(points), FirstPerKey(points)[i].insulin)]
    decreases |points|
  {
    var front := points[..|points| - 1];
    var last := points[|points| - 1];
    var rest := FirstPerKey(front);
    if i < |rest| {
      assert FirstPerKey(points)[i] == rest[i];
      FirstOccurrenceAt(front, i);
      FirstIndexInFront(points, rest[i].insulin);
      assert front[Seqs.FirstIndex(Keys(front), rest[i].insulin)] == points[Seqs.FirstIndex(Keys(front), rest[i].insulin)];
    } else {
      assert last.insulin !in Keys(rest) && FirstPerKey(points)[i] == last;
      NotKeptNotSeen(front, last.insulin);
      FirstIndexOfNew(points);
    }
  }

  lemma KeysOfFront(points: seq<Point>)
    requires |points| > 0
    ensures Keys(points) == Keys(points[..|points| - 1]) + [points[|points| - 1].insulin]
  {
  }

  /** A key already among the earlier points keeps its first position. */
  lemma FirstIndexInFront(points: seq<Point>, x: Number)
    requires |points| > 0 && x in Keys(points[..|points| - 1])
    ensures x in Keys(points)
    ensures Seqs.FirstIndex(Keys(points), x) == Seqs.FirstIndex(Keys(points[..|points| - 1]), x)
  {
    KeysOfFront(points);
    Seqs.FirstIndexAppend(Keys(points[..|points| - 1]), [points[|points| - 1].insulin], x);
  }

  /** A new key first occurs at the last point. */
  lemma FirstIndexOfNew(points: seq<Point>)
    requires |points| > 0 && points[|points| - 1].insulin !in Keys(points[..|points| - 1])
    ensures points[|points| - 1].insulin in Keys(points)
    ensures Seqs.FirstIndex(Keys(points), points[|points| - 1].insulin) == |points| - 1
  {
    KeysOfFront(points);
    assert Keys(points)[|points| - 1] == points[|points| - 1].insulin;
  }

  /** A key missing from the kept entries never occurred. */
  lemma NotKeptNotSeen(points: seq<Point>, key: Number)
    requires key !in Keys(FirstPerKey(points))
    ensures key !in Keys(points)
  {
    var d := Seqs.Dedup(Keys(points));
    assert Keys(FirstPerKey(points)) == d;
    forall k | 0 <= k < |Keys(points)|
      ensures Keys(points)[k] != key
    {
      assert Keys(points)[k] in d;
    }
  }

  /** The chart state: four arrays, one position per bar. */
  datatype Chart = Chart(labels: seq<string>, values: seq<Number>, glucoseValues: seq<Number>, times: seq<string>)

  predicate Aligned(c: Chart)
  {
    |c.labels| == |c.values| == |c.glucoseValues| == |c.times|
  }

  /** The four arrays filled from the map entries in insertion order. */
  function ChartOf(entries: seq<Point>, barLabel: Number -> string): (c: Chart)
    ensures Aligned(c) && |c.values| == |entries|
    ensures forall i :: 0 <= i < |entries| ==>
              && c.labels[i] == barLabel(entries[i].insulin) && c.values[i] == entries[i].insulin
              && c.glucoseValues[i] == entries[i].glucose && c.times[i] == entries[i].time
  {
    Chart(seq(|entries|, i requires 0 <= i < |entries| => barLabel(entries[i].insulin)),
          Keys(entries),
          seq(|entries|, i requires 0 <= i < |entries| => entries[i].glucose),
          seq(|entries|, i requires 0 <= i < |entries| => entries[i].time))
  }

  /** `fetchData`: on a read error the previous chart stays. */
  function FetchData(pod: Pod, url: Url, previous: Chart, parseFloat: string -> Number, barLabel: Number -> string): (c: Chart)
    ensures Read(pod, url).Failure? ==> c == previous
    ensures Read(pod, url).Success? ==>
              && Aligned(c)
              && Seqs.Distinct(c.values)
              && c.values == Seqs.Dedup(Keys(Contributions(Read(pod, url).value.things, parseFloat)))
  {
    match Read(pod, url)
    case Failure(_) => previous
    case Success(ds) => ChartOf(FirstPerKey(Contributions(ds.things, parseFloat)), barLabel)
  }

  /**
   * Every insulin value among the contributing things gets a bar, and that
   * bar shows the glucose value and slot of the first thing with it.
   */
  lemma BarsComeFromFirstOccurrences(things: seq<Thing>, parseFloat: string -> Number, barLabel: Number -> string, x: Number)
    requires x in Keys(Contributions(things, parseFloat))
    ensures var points := Contributions(things, parseFloat);
            var c := ChartOf(FirstPerKey(points), barLabel);
            && x in c.values
            && var j := Seqs.FirstIndex(c.values, x);
               var first := points[Seqs.FirstIndex(Keys(points), x)];
               && c.labels[j] == barLabel(x)
               && c.glucoseValues[j] == first.glucose && c.times[j] == first.time
  {
    var points := Contributions(things, parseFloat);
    var kept := FirstPerKey(points);
    FirstOccurrenceWins(points, x);
    assert ChartOf(kept, barLabel).values == Keys(kept);
  }

  /** The x-axis callback: `times[index] || ''`. */
  function TickLabel(times: seq<string>, index: int): (r: string)
    ensures 0 <= index < |times| ==> r == times[index]
    ensures !(0 <= index < |times|) ==> r == ""
  {
    if 0 <= index < |times| && times[index] != "" then times[index] else ""
  }

  /**
   * Below the bar of each insulin value read from the day's predictions,
   * the x-axis shows the slot of the first reading with that value.
   */
  lemma TickOfBarIsFirstSlot(pod: Pod, url: Url, previous: Chart, parseFloat: string -> Number, barLabel: Number -> string, x: Number)
    requires Read(pod, url).Success?
    requires x in Keys(Contributions(Read(pod, url).value.things, parseFloat))
    ensures var points := Contributions(Read(pod, url).value.things, parseFloat);
            var c := FetchData(pod, url, previous, parseFloat, barLabel);
            && x in c.values
            && TickLabel(c.times, Seqs.FirstIndex(c.values, x)) == points[Seqs.FirstIndex(Keys(points), x)].time
  {
    BarsComeFromFirstOccurrences(Read(pod, url).value.things, parseFloat, barLabel, x);
  }
}

=== FILE: wrappers.dfy ===
/** Failure-compatible wrappers shared by every module of the model. */
module Wrappers {

  /** A value that may be absent: JavaScript's `null`/`undefined` or Python's `None`. */
  datatype Option<+T> = None | Some(value: T)

  /** The outcome of an operation that can fail with an error of type `E`. */
  datatype Result<+T, +E> = Success(value: T) | Failure(error: E)
}
